=== FILE: README.md ===
# Template-checked JSON views and their delta engine

This project models `json_interface.py`, a small library with two parts:

- a validating view layer over JSON-shaped data;
- a structural diff/patch pair built on that layer.

A *template* is a JSON value read structurally:

- a mapping declares fields, and the key `""` alone acts as a wildcard;
- a list of length 0 or 1 describes a homogeneous sequence;
- a list of length 2 or more is a closed choice of literals;
- a primitive fixes a category;
- null accepts anything.

A mapping view (`JSONDict`) or a sequence view (`JSONList`) wraps data under such a template. It validates eagerly and recursively when it is built. Each write is re-validated before it is committed.

`calculate_delta` computes a template-scoped patch between two mapping views of one type. `add_delta` applies such a patch to a copy of the old view.

The model uses value semantics. Views are immutable datatypes. Each mutation is a function that returns either the new view or an `Error`, so a failed write leaves the caller's view as it was. Deep copies and live aliasing between parent and child views are therefore not needed.

The modules follow the source's structure:

- `JsonModel` (`json.dfy`): the `Json` datatype (numbers are unbounded integers), the error outcomes, `Result`/`Option`, and the underscore-to-space name translation.
- `Template` (`template.dfy`): template classification and the shallow (one-level) type check.
- `Views` (`views.dfy`): the two view datatypes, read results (`Node`), and the one wrapping policy (`ShapeOf`/`Wrap`). Reads, construction and write checks all share that policy. This module also holds construction-time validation as mutually recursive predicates. The predicates mirror the source's call chain: `_type_check`, then `__getattr__`, then the child constructor. They include the quirk that the raw data key is translated a second time on the way.
- `MappingView` (`mapping_view.dfy`): field read, write, delete and the presence test of `JSONDict`.
- `SequenceView` (`sequence_view.dfy`): indexed read, item write, append and delete of `JSONList`. Negative indices count from the end.
- `Delta` (`delta.dfy`): `calculate_delta` and `add_delta` with their per-key steps. Also:
  - the round-trip theorem;
  - the worked example of a tag list;
  - the as-written model of the two defects listed under Findings, with counterexamples.

View equality (`__eq__`, lines 138-142 and 212-216) compares type name, template and data. That is exactly the structural equality of the `DictView` and `ListView` datatypes, so it needs no separate member.

The evident intent of `add_delta` is that `add_delta(old, calculate_delta(old, new))` reconstructs `new` for any two views that share a template: lines 264-265 expect null markers for deleted keys. The code does not meet this, and the model follows the code:

- A mapping-typed field that only the new view holds makes the patch fail (`Delta.DictAdditionCounterexample`).
- A deletion under a non-empty mapping template, or under a list template with a non-null item template, makes the delta computation itself fail (Findings).

The model corrects the second defect. It proves the round trip under the remaining hypotheses (`Delta.DeltaRoundTrip`).

## Model

| member | source | states |
|---|---|---|
| JsonModel.Translate | json_interface.py:5-6 | the translated name has the same length; each underscore becomes a space and every other character is kept, so no underscore remains |
| JsonModel.TranslateFixesPlain | json_interface.py:5-6 | a name is its own translation exactly when it holds no underscore |
| JsonModel.TranslateIdempotent | json_interface.py:5-6 | translating twice is translating once, so translating again on a nested read changes nothing |
| Template.ShallowCheck | json_interface.py:17-29 | the check passes exactly when: the template or the value is null; or a choice template lists the value; or the value and template are built the same way (an independent per-constructor relation rather than the category table); every failure is a shape mismatch at the given path |
| Template.IsListTemplate | json_interface.py:9-10 | a list of length 0 or 1 is a sequence template (see `Template.ListTemplateKinds`) |
| Template.IsChoiceTemplate | json_interface.py:13-14 | a list of length 2 or more is a closed choice (see `Template.ListTemplateKinds`) |
| Template.ListTemplateKinds | json_interface.py:9-14 | every list template is exactly one of a sequence template and a choice template, and no other template is either |
| Template.ChoiceIsClosed | json_interface.py:20-24 | a status example: the choice `["open", "closed"]` rejects `"pending"`, a string that it does not list, and accepts `"open"` (the general rule is `Template.ShallowCheck`) |
| Views.CheckName | json_interface.py:47-49 | the name check passes exactly when there is no template, the template is a wildcard, or the template declares the name; a failure is the unknown-field error naming the type and the field |
| Views.AnyKeys | json_interface.py:36 | a template is a wildcard exactly when it is a mapping whose one key is the empty string, so `{}` is not one and an empty key next to other keys is an ordinary field (stated by `Views.WildcardRule`) |
| Views.WildcardRule | json_interface.py:34-49 | under a wildcard every name passes the name check, is governed by the empty key's value and is labelled as an element of the type; under any other mapping template a name passes exactly when it is declared, is governed by its own value and is labelled `T.name`; under no template every name passes with no template value |
| Views.Resolve | json_interface.py:73-78 | the template value governing a field, looked up the same way at lines 54-59 and 109-112: none without a template, the empty key's value under a wildcard, otherwise the declared value (stated by `Views.WildcardRule`) |
| Views.ItemLabel | json_interface.py:162 | the diagnostic path of every item, `(item of T)`: child views read from a list are named by it and item-check failures are reported at it (`SequenceView.GetItem`, `SequenceView.SetItem`, `SequenceView.Append`) |
| Views.ElementLabel | json_interface.py:41-45 | the diagnostic path of a field: `(element of T)` under a wildcard template, `T.name` otherwise |
| Views.ShapeOf | json_interface.py:79-88 | the wrapping policy shared by field reads and item reads (lines 178-188); its cases are stated by `Views.ShapeFollowsTemplate` |
| Views.ShapeFollowsTemplate | json_interface.py:79-88 | a mapping template always gives a child mapping view and a sequence template a child sequence view; without a template the data's kind decides; a primitive or choice template gives the raw value; `{}` and `[]` give child views with no template, and any other child template is the template value itself or its single item |
| Views.DictValid | json_interface.py:51-63 | a mapping view builds when the template is null, or when template and data are mappings and every data key passes `Views.KeyValid` (characterised per field by `Views.DictValidLocal`) |
| Views.KeyValid | json_interface.py:56-63 | one key passes when the raw key passes the name check, its value passes the shallow check, and, for a container template value, reading the key back (translating it again) succeeds |
| Views.ReadValid | json_interface.py:65-90 | a read of a translated key succeeds when the name check passes and a present, non-null value wraps into a view that builds |
| Views.ListValid | json_interface.py:166-173 | a sequence view builds when the item template is null, or the data is a list whose every item passes `Views.ItemValid` |
| Views.ItemValid | json_interface.py:170-173 | one item passes when it passes the shallow check and, for a container item template, the view it wraps into builds; null items are wrapped too |
| Views.WriteCheck | json_interface.py:106-117 | the check before a write: a failure with a shallow mismatch is reported at the given path; its meaning is stated by `Views.WriteCheckIsItemCheck`, `Views.WriteCheckGivesWrapValid`, `Views.WrapValidGivesWriteCheck` and `Views.NullWriteCheck` |
| Views.NullWriteCheck | json_interface.py:114-117 | the write check refuses null exactly under a non-empty mapping template or a one-element list template whose item template is not null, because it builds a child view over null |
| Views.NewDict | json_interface.py:33-63 | construction succeeds exactly when the data passes recursive validation, and then the view holds the given type name, template and data |
| Views.NewList | json_interface.py:158-173 | construction succeeds exactly when every item passes the item check, and then the view holds the given parts |
| Views.Wrap | json_interface.py:79-90 | wrapping succeeds exactly when the child view it builds validates; the result always carries the original data; a child mapping or sequence view is named after its path, follows the template-derived shape, and is itself valid |
| Views.WriteCheckIsItemCheck | json_interface.py:192-197 | the check before an item write or append accepts exactly the items that construction accepts, null items included |
| Views.WriteCheckGivesWrapValid | json_interface.py:106-117 | a value that passed the write check passes the shallow check and wraps into a valid view on read |
| Views.WrapValidGivesWriteCheck | json_interface.py:106-117 | conversely, a non-null value that the shallow check accepts and that wraps validly passes the write check |
| Views.DictValidLocal | json_interface.py:51-63 | when no key holds an underscore, a mapping validates exactly when every key is declared and its value fits its template value |
| Views.UndeclaredFieldRejected | json_interface.py:56-57 | under a fixed-field template, a data key the template does not declare makes construction fail |
| Views.ValidFieldsFit | json_interface.py:56-60 | every field of a constructed view is declared and passed the shallow check against its template value (the wildcard's value when there is one) |
| Views.ValidChildrenValid | json_interface.py:61-63 | on a constructed view, a present field whose key has no underscore and whose template value is a container wraps into a valid child view: validation is recursive (a key with an underscore is read back under its translation, which may be absent) |
| Views.UnderscoreFieldRejected | json_interface.py:61-66 | a declared container-typed key with an underscore, whose translation is not declared, makes construction fail whatever the value |
| Views.UnderscoreFieldExample | json_interface.py:61-66 | concrete instance: template and data `{"a_b": {}}` are rejected |
| MappingView.Get | json_interface.py:65-92 | an undeclared name fails; an absent or null field reads as null; otherwise the read succeeds exactly when the wrapped child validates. The result carries the field's data, and its kind follows the template: `{}` gives a template-free mapping view, `[]` a template-free sequence view, a mapping or one-element list template a child view under it, a primitive or choice template the raw value, and no template leaves the data to decide |
| MappingView.GetSucceedsOnValid | json_interface.py:65-92 | on a constructed view, reading any declared name succeeds |
| MappingView.Contains | json_interface.py:94-95 | `name in view` (lines 129-130): the raw name is a key whose value is not null; related to reads by `MappingView.ContainsAgreesWithGet` |
| MappingView.ContainsAgreesWithGet | json_interface.py:94-95 | for a declared name without underscores, `name in view` holds exactly when the read gives something other than null |
| MappingView.ContainsDoesNotTranslate | json_interface.py:129-130 | the presence test does not translate names but reads do: `"a_b" in view` is false while `view.a_b` finds the key `"a b"` |
| MappingView.Set | json_interface.py:100-119 | a successful write changes exactly the translated key to the value; with no template every write succeeds; an undeclared name and a shallow mismatch fail with their own errors; otherwise the write succeeds exactly when the write check does |
| MappingView.SetPreservesValidity | json_interface.py:100-119 | a successful write keeps a constructed view valid, including any other keys whose translation is the written key |
| MappingView.SetMatchesValidation | json_interface.py:106-117 | for a non-null value and a plain name, a write succeeds exactly when the updated data would pass construction |
| MappingView.SetThenGet | json_interface.py:100-119 | after a write, the field reads back as the written value (null reads as null), and every field with a different translation reads as before |
| MappingView.NullWriteRefused | json_interface.py:114-117 | under a template, writing null to a declared field fails exactly when the field's template value is a non-empty mapping template or a list template with a non-null item template |
| MappingView.NullFieldValid | json_interface.py:56-60 | yet a constructed view that holds null in such a field still validates, because construction does not check null fields |
| MappingView.WildcardExample | json_interface.py:106-113 | under a wildcard template every key is checked against the one template value, and the error names the element of the type |
| MappingView.Del | json_interface.py:121-124 | an undeclared name fails; a declared name missing from the data fails with a missing-key error; otherwise exactly that key is removed |
| MappingView.DelPreservesValidity | json_interface.py:121-124 | deleting keeps a constructed view valid |
| MappingView.DelThenGet | json_interface.py:121-124 | after a deletion the field reads as null and is not present, and every field with a different translation reads as before |
| SequenceView.Position | json_interface.py:175-176 | an index in range addresses a position inside the list: itself when non-negative, or counted from the end |
| SequenceView.GetItem | json_interface.py:175-190 | an index outside the list fails with that index; otherwise the read succeeds exactly when the wrapped item validates. It carries the item, and its kind follows the item template as for a field read; with no item template (every list read under `[]`) the read cannot fail and the item's own kind decides: a mapping gives a template-free mapping view, a list a template-free sequence view, anything else the raw item. Child views are named as items of the list |
| SequenceView.GetItemSucceedsOnValid | json_interface.py:166-173 | on a constructed sequence view, every item passed the shallow check and every index in range reads successfully |
| SequenceView.SetItem | json_interface.py:199-203 | the write succeeds exactly when the item check passes and the index is in range; the item check runs first; on success the length is kept, the addressed position holds the value, and no other position changes |
| SequenceView.SetItemPreservesValidity | json_interface.py:199-203 | a successful item write keeps a constructed sequence view valid |
| SequenceView.Append | json_interface.py:208-210 | the append succeeds exactly when the item check passes; the list grows by one, with the value last and the earlier items unchanged |
| SequenceView.AppendPreservesValidity | json_interface.py:208-210 | a successful append keeps a constructed sequence view valid |
| SequenceView.AppendThenGetLast | json_interface.py:208-210 | after an append, index -1 reads back the appended value |
| SequenceView.DelItem | json_interface.py:205-206 | the deletion succeeds exactly when the index is in range; the list shrinks by one, the items before the position are kept, and the later ones shift down by one |
| SequenceView.DelItemPreservesValidity | json_interface.py:205-206 | deleting an item keeps a constructed sequence view valid |
| Delta.Record | json_interface.py:244-255 | each `delta[name] = v` of the delta computation succeeds exactly when the field's write check passes, and then stores `v` unchanged |
| Delta.RecordIsSet | json_interface.py:100-119 | recording an entry is the mapping view's own field write on the delta: it succeeds exactly when that write does, and the write stores the value at the key |
| Delta.DeltaEntry | json_interface.py:238-255 | one key's entry is empty exactly when presence and the value are unchanged; a null entry means the key was present only in the old view; any other entry comes from a key that the new view holds; the value of each entry, including the recursive one, is stated by `Delta.DeltaEntryRules` |
| Delta.DeltaEntryRules | json_interface.py:238-255 | a key present only in the old view gets the null marker; a key present only in the new view gets its new value (the corrected line 255); a changed field under a primitive, choice or list template gets the new value wholesale; a changed field under a non-empty mapping template gets the data of the recursive delta of the two child views, written through the field's write check, and the entry fails when that recursive delta fails (lines 245-246); with a null template value a changed field gets its new value whole (lines 247-251) unless both values are mappings, and under a null or `{}` template value two differing mappings fail as not iterable, since their sub-delta has no template (line 238) |
| Delta.CalculateDelta | json_interface.py:231-257 | a type or template mismatch fails with the incompatible-delta error; a null template cannot be iterated. On success the delta has the old type and template, and its keys are declared fields. A declared key is left out exactly when it did not change, and each stored value is that key's entry |
| Delta.DeltaOfEntries | json_interface.py:237-257 | the delta is determined by its entries: a map that holds exactly the stored entries is the delta's data |
| Delta.DeltaOfSelf | json_interface.py:231-257 | the delta of a valid view with itself has empty data |
| Delta.PatchEntry | json_interface.py:263-269 | a null entry over a present key deletes it; every stored value passed the copy's write check; an entry that is not a nested delta is stored unchanged; a nested delta is applied recursively: the copy's field reads as a mapping view, the recursive patch of that child succeeds, and its data is what is stored |
| Delta.AddDelta | json_interface.py:260-270 | success needs a valid old view and keeps its type and template. An empty delta gives back the old view. Keys the delta does not mention keep their values, the result holds no key that neither side had, a null entry removes a present key, and any other entry that is not a nested delta is stored as it is. Every entry's patch step succeeds on the old view, and the value it stores (for a nested delta, the data of the recursive patch of the old child) is the result's value for that key |
| Delta.Patched | json_interface.py:261-270 | the patched data keeps unmentioned keys, drops keys whose step deleted them, and holds each stored step value |
| Delta.EntryRoundTrip | json_interface.py:238-255 | for fixed-shape templates, each key's entry exists; a non-null entry is a key the new view holds and fits its field; it is the new value itself, or, under a mapping template, a sub-delta whose patch of the old child agrees with the new child |
| Delta.PatchApplies | json_interface.py:260-270 | patching the old view with any delta that meets the per-key round-trip facts succeeds, gives a valid view of the same type, and agrees with the new view |
| Delta.DeltaRoundTrip | json_interface.py:231-270 | for fixed-shape templates (non-empty nested mapping templates, no wildcard, no null, no underscore) and no mapping-typed field that only the new view holds: the delta exists and is valid, and patching the old view with it succeeds with a valid view that agrees with the new one on every declared key (presence, and value or nested agreement) |
| Delta.TagsDelta | json_interface.py:231-257 | with template `{"name": "", "tags": [""]}`, the delta of tags `["x"]` to `["x", "y"]` replaces the list wholesale and leaves out the unchanged name |
| Delta.TagsPatch | json_interface.py:260-270 | applying that delta to the old document gives exactly the new one |
| Delta.StoreAsWritten | json_interface.py:252-255 | as written, a key present only in the new view stores whatever the leftover local variable holds, and fails when nothing was assigned; the null marker of an old-only key goes through the validating write, and fails exactly when the field's template value refuses null (a non-empty mapping template, or a list template with a non-null item template) |
| Delta.LeftoverNewValueCounterexample | json_interface.py:254-255 | with template `{"a": ""}`, old `{}` and new `{"a": "x"}`: the as-written step fails with nothing assigned or stores a stale value, while the corrected delta is `{"a": "x"}` |
| Delta.NullMarkerRejected | json_interface.py:114-115 | under the template `{"a": {"b": ""}}`, storing the null marker for `"a"` fails its write check |
| Delta.ListDeletionMarkerCounterexample | json_interface.py:252-253 | with template `{"name": "", "tags": [""]}`, old `{"name": "A", "tags": ["x"]}` and new `{"name": "A"}`: the as-written null marker for `"tags"` is refused, while the corrected entry is the null marker |
| Delta.DeletionMarkerCounterexample | json_interface.py:252-253 | with template `{"a": {"b": ""}}`, old `{"a": {"b": "x"}}` and new `{}`: the as-written delta computation fails; the corrected delta is `{"a": null}`, and applying it gives back the new document |
| Delta.DictAdditionCounterexample | json_interface.py:266-267 | with template `{"a": {"b": ""}}`, old `{}` and new `{"a": {"b": "x"}}`: the delta is the new document, and applying it fails, because the nested patch has no mapping to patch |

## Left out

- Printing and text rendering (`print`, `dumps`, `__repr__`, `__str__`): they format text through an external JSON encoder.
- Live aliasing between a view and its children, and `deepcopy`: with value semantics, copying is the identity. The model still keeps the re-validation that `JSONDict._copy` performs, as the first step of `Delta.AddDelta`.
- `JSONList._copy` (lines 224-225) returns a mapping view over list data. It is reached only from `add_delta`, when a nested delta meets a field that reads as a sequence view (line 267 calls `add_delta`, whose line 261 copies); see the `Delta.PatchEntry` line below.
- `__iter__` (lines 97-98) unpacks keys as pairs and cannot run as written.
- The attribute plumbing through `self.__dict__`.
- The choice of which error comes first when several fields of one construction fail: it depends on dictionary iteration order. The model reports a single `Rejected` error for the view, and states "succeeds iff every key passes".
- The int/float distinction and the host language's `True == 1` (and `1 == 1.0`) wherever values are compared: choice membership (line 21), the template and data comparisons of `calculate_delta` (lines 232, 243, 245, 248 and 250) and view equality. Numbers are unbounded integers, booleans are distinct from numbers, and every comparison is structural equality of `Json` values.
- MappingView.Get: requires mapping data. A mapping view over other data arises from construction with no template, and inside the core from reading a null item of a list whose item template is `{}` (lines 178-182 build a view with no template over null). On such data the source raises a type error, or, over a string, tests for a substring; those paths are not modelled.
- MappingView.Set: requires mapping data, for the same reason; the source raises a type error on such data.
- MappingView.Del: requires mapping data, for the same reason; the source raises a type error on such data.
- MappingView.Contains: requires mapping data, for the same reason; the source raises a type error over null and tests for a substring over a string.
- Views.NewList, Views.ListValid: non-list data under a sequence view with an item template is treated as invalid. The source would iterate a string character by character, or accept an empty mapping.
- SequenceView.GetItem: requires list data. A sequence view over null arises inside the core from reading a null item under the item template `[]` (lines 183-188; a null field reads as null at lines 71-72); the source then raises a type error, and over a string with no item template it returns one character. Neither path is modelled.
- SequenceView.SetItem: requires list data; the source raises a type error over null or a string.
- SequenceView.Append: requires list data; the source raises an attribute error over null or a string.
- SequenceView.DelItem: requires list data; the source raises a type error over null or a string.
- Delta.CalculateDelta: requires valid views and templates whose keys hold no underscore at any depth (`PlainKeys`). With such keys, the template key and the translated read key differ, and the source's result depends on which one is looked up.
- Delta.CalculateDelta: a wildcard template is diffed only on its `""` key, as in the source. A `{}` template value or a null template inside a nested mapping makes the nested delta fail as not iterable. The round trip excludes both.
- Delta.DeltaEntry: reads of valid views are treated as infallible. That holds by `MappingView.GetSucceedsOnValid`, so the read-failure paths are not modelled.
- Delta.AddDelta: requires every key of every mapping the patch descends into to be underscore-free (`PatchPlain`). Colliding translations would make the source's result order dependent.
- Delta.PatchEntry: a nested delta applied to a field that reads as a sequence view fails as not a mapping. The source would call `JSONList._copy`, which is left out.
- Delta.DeltaRoundTrip: proved only for fixed-shape templates, and only when no mapping-typed field appears solely in the new view. Without the second hypothesis the source fails (`Delta.DictAdditionCounterexample`). It states agreement on declared keys: presence, and equal values or nested agreement. It does not state equality of the raw data, because presence ignores null-valued keys: the source removes a present key whose new value is null, and when the old view holds `k: null` and the new view lacks `k`, the delta is empty and the patch keeps the null.
- Equality of a child view with a view of the other kind, or with a raw value, is always false, as it is in the host language's fallback comparison. It is not a separate member.
- Writing a view object: a field write (lines 103-104) and an item write (lines 200-201) unwrap it to its data, and the model passes that raw data.
- SequenceView.Append: a view object passed to `append` is not unwrapped (lines 208-210): under a non-null item template it fails the shallow check, and under a null item template the object itself is stored. `Json` has no view values, so this is not modelled.

## Findings

| source | as written | input that shows it | evidently intended | confidence | as-written member | corrected member |
|---|---|---|---|---|---|---|
| json_interface.py:254-255 | a key held only by the new view stores `new_value`, a local that is assigned only in the both-present branch: it is unbound on the first such key, or stale from an earlier key | template `{"a": ""}`, old `{}`, new `{"a": "x"}` | store the new view's value for the key | not executed | Delta.LeftoverNewValueCounterexample | Delta.DeltaEntryRules |
| json_interface.py:252-253 | the null deletion marker is written through the delta's validating write; under a non-empty mapping template, or a list template with a non-null item template, that write builds a child view over null, which fails (line 56 or line 169) | template `{"a": {"b": ""}}`, old `{"a": {"b": "x"}}`, new `{}`; also template `{"name": "", "tags": [""]}`, old `{"name": "A", "tags": ["x"]}`, new `{"name": "A"}` (`Delta.ListDeletionMarkerCounterexample`) | store the null marker without a write check, as `add_delta` expects at lines 264-265 | not executed | Delta.DeletionMarkerCounterexample | Delta.DeltaEntry |

=== FILE: delta.dfy ===
/** Deltas between two mapping views of one type, and patching a view with
    a delta. A delta is a mapping view under the same template whose data
    holds, per changed key, the new value, a nested delta, or null as the
    deletion marker. */
module Delta {
  import opened JsonModel
  import opened Template
  import opened Views
  import opened MappingView

  /** Every mapping key of the template, at every depth, is its own
      translation; reads by template key then address exactly that key. */
  predicate PlainKeys(t: Json)
    decreases t
  {
    t.Obj? ==> forall k :: k in t.fields ==> '_' !in k && PlainKeys(t.fields[k])
  }

  /** `delta[name] = value` on the delta under construction: the write
      check of the field is the only thing that can fail. */
  function Record(typeName: string, t: Json, k: string, v: Json): (r: Result<Option<Json>>)
    requires NameDeclared(t, k)
    ensures r.Success? <==> WriteCheck(ElementLabel(typeName, t, k), v, Resolve(t, k)).Success?
    ensures r.Success? ==> r.value == Some(v)
  {
    var _ :- WriteCheck(ElementLabel(typeName, t, k), v, Resolve(t, k));
    Success(Some(v))
  }

  /** Recording an entry is the mapping view's field write on the delta
      under construction: it succeeds exactly when that write does, and then
      the write stores the recorded value at the key. */
  lemma RecordIsSet(delta: DictView, k: string, v: Json)
    requires delta.data.Obj? && delta.template.Obj? && k in delta.template.fields && '_' !in k
    ensures Record(delta.typeName, delta.template, k, v).Success? <==> Set(delta, k, v).Success?
    ensures Set(delta, k, v).Success? ==>
              && Record(delta.typeName, delta.template, k, v) == Success(Some(v))
              && Set(delta, k, v).value.data == Obj(delta.data.fields[k := v])
  {
    TranslateFixesPlain(k);
  }

  /** The delta of two views of the same type: for each template key, what
      the delta stores (None: nothing). The deletion marker is stored as is;
      a key only `after` holds stores `after`'s own value. */
  function DeltaEntry(before: DictView, after: DictView, k: string): (r: Result<Option<Json>>)
    requires IsValidDict(before) && IsValidDict(after) && PlainKeys(before.template)
    requires before.template.Obj? && before.template == after.template && before.typeName == after.typeName
    requires k in before.template.fields
    // the entry is empty exactly when the key did not change
    ensures (r == Success(None)) <==>
              && (Present(before.data.fields, k) <==> Present(after.data.fields, k))
              && (Present(before.data.fields, k) ==> before.data.fields[k] == after.data.fields[k])
    ensures r.Success? && r.value == Some(Null) ==>
              Present(before.data.fields, k) && !Present(after.data.fields, k)
    ensures r.Success? && r.value.Some? && !r.value.value.Null? ==> Present(after.data.fields, k)
    decreases before.data, 0
  {
    var t := before.template;
    TranslateFixesPlain(k);
    // reads of a template key on a valid view cannot fail
    GetSucceedsOnValid(before, k);
    GetSucceedsOnValid(after, k);
    if Contains(before, k) && Contains(after, k) then
      var ov := Get(before, k).value;
      var nv := Get(after, k).value;
      if ov.DictNode? && nv.DictNode? then
        if nv.dict.typeName != ov.dict.typeName || nv.dict.template != ov.dict.template then
          Record(before.typeName, t, k, nv.dict.data)
        else if nv.dict.data != ov.dict.data then
          var sub :- CalculateDelta(ov.dict, nv.dict);
          Record(before.typeName, t, k, sub.data)
        else Success(None)
      else if ov.ListNode? && nv.ListNode? then
        if nv.list.data != ov.list.data then Record(before.typeName, t, k, nv.list.data)
        else Success(None)
      else if nv != ov then Record(before.typeName, t, k, Unwrap(nv))
      else Success(None)
    else if Contains(before, k) then Success(Some(Null))
    else if Contains(after, k) then Record(before.typeName, t, k, Unwrap(Get(after, k).value))
    else Success(None)
  }

  /** calculate_delta: a delta under the common template holding exactly the
      keys whose entry stores something. */
  function CalculateDelta(before: DictView, after: DictView): (r: Result<DictView>)
    requires IsValidDict(before) && IsValidDict(after) && PlainKeys(before.template)
    ensures r == Failure(IncompatibleDelta) <==>
              before.typeName != after.typeName || before.template != after.template
    ensures before.typeName == after.typeName && before.template == after.template && before.template.Null? ==>
              r == Failure(NotIterable(before.typeName))
    ensures r.Success? ==>
              && r.value.typeName == before.typeName
              && r.value.template == before.template
              && before.template.Obj? && r.value.data.Obj?
              && r.value.data.fields.Keys <= before.template.fields.Keys
    // the delta leaves out exactly the keys that did not change
    ensures r.Success? ==>
              forall k :: k in before.template.fields ==>
                (k !in r.value.data.fields <==>
                   && (Present(before.data.fields, k) <==> Present(after.data.fields, k))
                   && (Present(before.data.fields, k) ==> before.data.fields[k] == after.data.fields[k]))
    // each stored value is its key's entry
    ensures r.Success? ==>
              forall k :: k in r.value.data.fields ==>
                k in before.template.fields &&
                DeltaEntry(before, after, k) == Success(Some(r.value.data.fields[k]))
    // null marks a deletion, anything else comes from a key `after` holds
    ensures r.Success? ==>
              forall k :: k in r.value.data.fields ==>
                && (r.value.data.fields[k].Null? ==>
                      Present(before.data.fields, k) && !Present(after.data.fields, k))
                && (!r.value.data.fields[k].Null? ==> Present(after.data.fields, k))
    decreases before.data, 1
  {
    var t := before.template;
    if before.typeName != after.typeName || t != after.template then Failure(IncompatibleDelta)
    else if !t.Obj? then Failure(NotIterable(before.typeName))
    else if forall k :: k in t.fields ==> DeltaEntry(before, after, k).Success? then
      Success(DictView(before.typeName, t,
        Obj(map k | k in t.fields && DeltaEntry(before, after, k).value.Some? ::
              DeltaEntry(before, after, k).value.value)))
    else Failure(Rejected(before.typeName))
  }

  /** The per-key rules of the delta: a key only the old view holds gets
      the deletion marker; a key only the new view holds gets the new value;
      a changed field whose template value is a list, a choice or a
      primitive gets the new value whole; a changed field under a non-empty
      mapping template gets the data of the sub-delta of the two child
      views, written through the delta's write check, and the entry fails
      when the sub-delta does. With no template value, or the all-accepting
      `{}`, a changed field gets the new value whole unless both values are
      mappings: their sub-delta has no template and cannot be iterated. */
  lemma DeltaEntryRules(before: DictView, after: DictView, k: string)
    requires IsValidDict(before) && IsValidDict(after) && PlainKeys(before.template)
    requires before.template.Obj? && before.template == after.template && before.typeName == after.typeName
    requires k in before.template.fields
    ensures var mo := before.data.fields;
            var mn := after.data.fields;
            && (Present(mo, k) && !Present(mn, k) ==> DeltaEntry(before, after, k) == Success(Some(Null)))
            && (!Present(mo, k) && Present(mn, k) ==> DeltaEntry(before, after, k) == Success(Some(mn[k])))
            && (Present(mo, k) && Present(mn, k) && mo[k] != mn[k] &&
                !before.template.fields[k].Obj? && !before.template.fields[k].Null? ==>
                  DeltaEntry(before, after, k) == Success(Some(mn[k])))
    ensures var mo := before.data.fields;
            var mn := after.data.fields;
            var tv := before.template.fields[k];
            var path := ElementLabel(before.typeName, before.template, k);
            Present(mo, k) && Present(mn, k) && mo[k] != mn[k] && tv.Obj? && tv != Obj(map[]) ==>
              var o := DictView(path, tv, mo[k]);
              var n := DictView(path, tv, mn[k]);
              && IsValidDict(o) && IsValidDict(n) && PlainKeys(tv)
              && (CalculateDelta(o, n).Success? ==>
                    DeltaEntry(before, after, k) ==
                      Record(before.typeName, before.template, k, CalculateDelta(o, n).value.data))
              && (CalculateDelta(o, n).Failure? ==>
                    DeltaEntry(before, after, k) == Failure(CalculateDelta(o, n).error))
    ensures var mo := before.data.fields;
            var mn := after.data.fields;
            var tv := before.template.fields[k];
            Present(mo, k) && Present(mn, k) && mo[k] != mn[k] ==>
              && (tv.Null? && !(mo[k].Obj? && mn[k].Obj?) ==>
                    DeltaEntry(before, after, k) == Success(Some(mn[k])))
              && ((tv.Null? || tv == Obj(map[])) && mo[k].Obj? && mn[k].Obj? ==>
                    DeltaEntry(before, after, k) ==
                      Failure(NotIterable(ElementLabel(before.typeName, before.template, k))))
  {
    var t := before.template;
    var mn := after.data.fields;
    TranslateFixesPlain(k);
    GetSucceedsOnValid(before, k);
    GetSucceedsOnValid(after, k);
    if Present(mn, k) {
      ValidFieldValid(t, mn, k);
      var tv := t.fields[k];
      WrapValidGivesWriteCheck(ElementLabel(before.typeName, t, k), mn[k], tv);
      if Present(before.data.fields, k) && tv.Null? {
        var ov := before.data.fields[k];
        assert ShapeOf(Null, ov) == (if ov.Obj? then AsDict(Null) else if ov.Arr? then AsList(Null) else AsLeaf);
        assert ShapeOf(Null, mn[k]) == (if mn[k].Obj? then AsDict(Null) else if mn[k].Arr? then AsList(Null) else AsLeaf);
      }
      if Present(before.data.fields, k) && !tv.Obj? && !tv.Null? {
        var ov := Get(before, k).value;
        var nv := Get(after, k).value;
        assert Unwrap(ov) == before.data.fields[k] && Unwrap(nv) == mn[k];
        assert !ov.DictNode? && !nv.DictNode?;
        if IsListTemplate(tv) {
          assert ov.ListNode? && nv.ListNode?;
        } else {
          assert ov == Leaf(before.data.fields[k]) && nv == Leaf(mn[k]);
        }
      }
    }
  }

  /** A patch never needs a key translated: every key it walks (the delta's
      keys, and those of every nested delta it descends into) is plain. */
  predicate PatchPlain(t: Json, d: Json)
    decreases d
  {
    d.Obj? ==>
      forall k :: k in d.fields ==>
        && '_' !in k
        && (NameDeclared(t, k) && ShapeOf(Resolve(t, k), d.fields[k]).AsDict? ==>
              PatchPlain(ShapeOf(Resolve(t, k), d.fields[k]).template, d.fields[k]))
  }

  /** One step of add_delta, for delta key k, against the copy: None
      removes the key, Some(v) stores v. A null entry over a key the copy
      holds deletes it; a nested delta patches the copy's child view
      recursively; anything else is written through the write check. */
  function PatchEntry(copy: DictView, delta: DictView, k: string): (r: Result<Option<Json>>)
    requires copy.data.Obj? && delta.data.Obj? && k in delta.data.fields
    requires PatchPlain(delta.template, delta.data)
    ensures r.Success? ==> NameDeclared(copy.template, k) && NameDeclared(delta.template, k)
    ensures r.Success? && r.value.None? ==> Present(copy.data.fields, k) && delta.data.fields[k].Null?
    // a null entry deletes a key the copy holds
    ensures delta.data.fields[k].Null? && Present(copy.data.fields, k) &&
            NameDeclared(copy.template, k) && NameDeclared(delta.template, k) ==>
              r == Success(None)
    // what is stored passed the copy's write check
    ensures r.Success? && r.value.Some? && !copy.template.Null? ==>
              FieldFits(copy.template, k, r.value.value)
    // an entry that is not a nested delta is stored as it is
    ensures r.Success? && r.value.Some? &&
            (delta.data.fields[k].Null? ||
             !ShapeOf(Resolve(delta.template, k), delta.data.fields[k]).AsDict?) ==>
              r.value.value == delta.data.fields[k]
    // a nested delta is applied recursively to the copy's child view
    ensures r.Success? && Get(delta, k).Success? && Get(delta, k).value.DictNode? ==>
              var child := Get(delta, k).value.dict;
              && Get(copy, k).Success? && Get(copy, k).value.DictNode?
              && PatchPlain(child.template, child.data)
              && AddDelta(Get(copy, k).value.dict, child).Success?
              && r.value == Some(AddDelta(Get(copy, k).value.dict, child).value.data)
    decreases delta.data, 0
  {
    TranslateFixesPlain(k);
    var value :- Get(delta, k);
    if value == Leaf(Null) && Contains(copy, k) then
      var _ :- Del(copy, k);
      Success(None)
    else if value.DictNode? then
      var current :- Get(copy, k);
      if !current.DictNode? then Failure(NotAMapping(ElementLabel(copy.typeName, copy.template, k)))
      else
        var patched :- AddDelta(current.dict, value.dict);
        var written :- Set(copy, k, patched.data);
        WriteCheckOfSet(copy, k, patched.data);
        Success(Some(patched.data))
    else
      var written :- Set(copy, k, Unwrap(value));
      WriteCheckOfSet(copy, k, Unwrap(value));
      Success(Some(Unwrap(value)))
  }

  /** add_delta: patch a validated copy of `before` key by key. */
  function AddDelta(before: DictView, delta: DictView): (r: Result<DictView>)
    requires PatchPlain(delta.template, delta.data)
    ensures r.Success? ==>
              && IsValidDict(before)
              && r.value.typeName == before.typeName
              && r.value.template == before.template
    ensures delta.data == Obj(map[]) ==>
              (r.Success? <==> IsValidDict(before)) && (r.Success? ==> r.value == before)
    ensures r.Success? && before.data.Obj? ==>
              && delta.data.Obj?
              && r.value.data.Obj?
              // keys the delta does not mention keep their values
              && (forall k :: k in before.data.fields && k !in delta.data.fields ==>
                    k in r.value.data.fields && r.value.data.fields[k] == before.data.fields[k])
              // the result holds no key that neither side had
              && (forall k :: k in r.value.data.fields ==> k in before.data.fields || k in delta.data.fields)
              // a null entry removes a key the old view holds
              && (forall k ::
                    (k in delta.data.fields && delta.data.fields[k].Null? && Present(before.data.fields, k))
                    ==> k !in r.value.data.fields)
              // any other entry that is not a nested delta is stored as it is
              && (forall k ::
                    (&& k in delta.data.fields && NameDeclared(delta.template, k)
                     && !(delta.data.fields[k].Null? && Present(before.data.fields, k))
                     && (delta.data.fields[k].Null? ||
                         !ShapeOf(Resolve(delta.template, k), delta.data.fields[k]).AsDict?))
                    ==> k in r.value.data.fields && r.value.data.fields[k] == delta.data.fields[k])
    // every entry is the outcome of its patch step on the old view; for a
    // nested delta that is the recursive patch of the old child view
    ensures r.Success? && before.data.Obj? && delta.data.Obj? ==>
              forall k :: k in delta.data.fields ==>
                && PatchEntry(before, delta, k).Success?
                && (PatchEntry(before, delta, k).value.Some? ==>
                      k in r.value.data.fields &&
                      r.value.data.fields[k] == PatchEntry(before, delta, k).value.value)
    decreases delta.data, 2
  {
    var copy :- NewDict(before.typeName, before.template, before.data);
    if !delta.data.Obj? then Failure(NotAMapping(delta.typeName))
    else if delta.data.fields == map[] then Success(copy)
    else if !copy.data.Obj? then Failure(NotAMapping(copy.typeName))
    else if forall k :: k in delta.data.fields ==> PatchEntry(copy, delta, k).Success? then
      Success(copy.(data := Obj(Patched(copy, delta))))
    else Failure(Rejected(copy.typeName))
  }

  /** The data after every patch step: keys the delta does not mention
      keep their values, the others take what their step stores, or go. */
  function Patched(copy: DictView, delta: DictView): (m: map<string, Json>)
    requires copy.data.Obj? && delta.data.Obj? && PatchPlain(delta.template, delta.data)
    requires forall k :: k in delta.data.fields ==> PatchEntry(copy, delta, k).Success?
    ensures forall k :: k in copy.data.fields && k !in delta.data.fields ==>
              k in m && m[k] == copy.data.fields[k]
    ensures forall k :: k in delta.data.fields ==>
              var p := PatchEntry(copy, delta, k).value;
              && (p.None? ==> k !in m)
              && (p.Some? ==> k in m && m[k] == p.value)
    ensures forall k :: k in m ==> k in copy.data.fields || k in delta.data.fields
    decreases delta.data, 1
  {
    var m := copy.data.fields;
    var d := delta.data.fields;
    map j | j in m.Keys + d.Keys && (j in d ==> PatchEntry(copy, delta, j).value.Some?) ::
      if j in d then PatchEntry(copy, delta, j).value.value else m[j]
  }

  /** A value the write check of key k accepts under a mapping template. */
  predicate FieldFits(t: Json, k: string, v: Json)
    requires NameDeclared(t, k)
  {
    WriteCheck(ElementLabel("", t, k), v, Resolve(t, k)).Success?
  }

  /** The write check does not depend on the diagnostic path. */
  lemma WriteCheckPathFree(p: string, q: string, v: Json, tv: Json)
    ensures WriteCheck(p, v, tv).Success? <==> WriteCheck(q, v, tv).Success?
  {
  }

  /** A successful write under a template passed the key's write check. */
  lemma WriteCheckOfSet(view: DictView, k: string, v: Json)
    requires view.data.Obj? && '_' !in k && Set(view, k, v).Success?
    ensures NameDeclared(view.template, k)
    ensures !view.template.Null? ==> FieldFits(view.template, k, v)
  {
    TranslateFixesPlain(k);
    if !view.template.Null? {
      WriteCheckPathFree(ElementLabel(view.typeName, view.template, k),
                         ElementLabel("", view.template, k), v, Resolve(view.template, k));
    }
  }

  // ---------------------------------------------------------------------
  // The delta of a view with itself

  /** The delta is determined by its entries: when every field's entry
      succeeds, a map that holds exactly the stored entries is the delta. */
  lemma DeltaOfEntries(before: DictView, after: DictView, m: map<string, Json>)
    requires IsValidDict(before) && IsValidDict(after) && PlainKeys(before.template)
    requires before.template == after.template && before.typeName == after.typeName
    requires before.template.Obj? && m.Keys <= before.template.fields.Keys
    requires forall k :: k in before.template.fields ==>
               DeltaEntry(before, after, k) == (if k in m then Success(Some(m[k])) else Success(None))
    ensures CalculateDelta(before, after) == Success(DictView(before.typeName, before.template, Obj(m)))
  {
    var r := CalculateDelta(before, after);
    assert r.Success?;
    var d := r.value.data.fields;
    assert d.Keys == m.Keys;
    assert d == m;
  }

  /** A view has an empty delta against itself. */
  lemma DeltaOfSelf(view: DictView)
    requires IsValidDict(view) && view.template.Obj? && PlainKeys(view.template)
    ensures CalculateDelta(view, view) == Success(DictView(view.typeName, view.template, Obj(map[])))
  {
    var t := view.template;
    forall k | k in t.fields
      ensures DeltaEntry(view, view, k) == Success(None)
    {
      TranslateFixesPlain(k);
      if Contains(view, k) {
        GetSucceedsOnValid(view, k);
      }
    }
    assert CalculateDelta(view, view).value.data.fields.Keys == {};
  }

  // ---------------------------------------------------------------------
  // Round trip: patching the old view with the delta gives the new one

  /** Templates the round trip is stated for: fixed fields (no wildcard),
      plain keys, no null template values, and every nested mapping
      template again fixed-shape and non-empty. */
  predicate FixedShape(t: Json)
    decreases t
  {
    && t.Obj? && !AnyKeys(t)
    && forall k :: k in t.fields ==>
         && '_' !in k
         && !t.fields[k].Null?
         && (t.fields[k].Obj? ==> t.fields[k] != Obj(map[]) && FixedShape(t.fields[k]))
  }

  lemma {:induction false} FixedShapeIsPlain(t: Json)
    requires FixedShape(t)
    ensures PlainKeys(t)
    decreases t
  {
    forall k | k in t.fields
      ensures PlainKeys(t.fields[k])
    {
      if t.fields[k].Obj? {
        FixedShapeIsPlain(t.fields[k]);
      }
    }
  }

  /** No mapping-typed field is present in b but absent in a, at any depth:
      a patch can only descend into a child view the old view has. */
  predicate NoDictAdditions(t: Json, a: map<string, Json>, b: map<string, Json>)
    decreases t
  {
    t.Obj? ==>
      forall k :: k in t.fields && t.fields[k].Obj? && Present(b, k) ==>
        && Present(a, k)
        && (a[k].Obj? && b[k].Obj? ==> NoDictAdditions(t.fields[k], a[k].fields, b[k].fields))
  }

  /** Two mappings agree on every declared key: the same keys are present
      (non-null), and present values agree. */
  predicate Agree(t: Json, a: map<string, Json>, b: map<string, Json>)
    decreases t, 0
  {
    t.Obj? ==>
      forall k :: k in t.fields ==>
        && (Present(a, k) <==> Present(b, k))
        && (Present(a, k) ==> ValueAgree(t.fields[k], a[k], b[k]))
  }

  /** Two field values agree: nested mappings under a mapping template
      agree key by key, anything else is equal. */
  predicate ValueAgree(tv: Json, x: Json, y: Json)
    decreases tv, 1
  {
    if tv.Obj? && x.Obj? && y.Obj? then Agree(tv, x.fields, y.fields) else x == y
  }

  lemma {:induction false} AgreeReflexive(t: Json, a: map<string, Json>)
    ensures Agree(t, a, a)
    decreases t
  {
    if t.Obj? {
      forall k | k in t.fields && Present(a, k)
        ensures ValueAgree(t.fields[k], a[k], a[k])
      {
        if t.fields[k].Obj? && a[k].Obj? {
          AgreeReflexive(t.fields[k], a[k].fields);
        }
      }
    }
  }

  /** The hypotheses of the round trip. */
  predicate RoundTripReady(before: DictView, after: DictView) {
    && IsValidDict(before) && IsValidDict(after)
    && before.typeName == after.typeName && before.template == after.template
    && FixedShape(before.template)
    && before.data.Obj? && after.data.Obj?
    && NoDictAdditions(before.template, before.data.fields, after.data.fields)
  }

  /** A field of a valid mapping whose key needs no translation fits its
      template value. */
  lemma ValidFieldValid(t: Json, m: map<string, Json>, k: string)
    requires t.Obj? && DictValid(t, Obj(m)) && k in m && '_' !in k
    ensures NameDeclared(t, k) && FieldValid(Resolve(t, k), m[k])
  {
    TranslateFixesPlain(k);
    assert KeyValid(t, Obj(m), k);
    if IsContainerTemplate(Resolve(t, k)) && !m[k].Null? {
      assert ReadValid(t, Obj(m), k);
    }
  }

  /** What the round trip needs of a non-null delta entry of key k. */
  predicate EntryFacts(before: DictView, after: DictView, k: string, e: Option<Json>)
    requires before.data.Obj? && after.data.Obj? && before.template.Obj?
    requires k in before.template.fields
  {
    var tv := before.template.fields[k];
    var mo := before.data.fields;
    var mn := after.data.fields;
    e.Some? && !e.value.Null? ==>
      && Present(mn, k)
      && FieldValid(tv, e.value)
      && (!tv.Obj? ==> e.value == mn[k])
      && (tv.Obj? ==>
            && Present(mo, k) && mo[k].Obj? && mn[k].Obj? && e.value.Obj?
            && PatchPlain(tv, e.value)
            && var child := DictView(ElementLabel(before.typeName, before.template, k), tv, mo[k]);
               var patched := AddDelta(child, DictView(child.typeName, tv, e.value));
               && patched.Success?
               && IsValidDict(patched.value)
               && patched.value.template == tv
               && patched.value.data.Obj?
               && Agree(tv, patched.value.data.fields, mn[k].fields))
  }

  /** Per key: the delta entry exists and has the facts above. */
  lemma {:induction false} EntryRoundTrip(before: DictView, after: DictView, k: string)
    requires RoundTripReady(before, after) && k in before.template.fields
    ensures PlainKeys(before.template)
    ensures DeltaEntry(before, after, k).Success?
    ensures EntryFacts(before, after, k, DeltaEntry(before, after, k).value)
    decreases before.data, 0
  {
    var t := before.template;
    var tv := t.fields[k];
    var mo := before.data.fields;
    var mn := after.data.fields;
    var path := ElementLabel(before.typeName, t, k);
    FixedShapeIsPlain(t);
    TranslateFixesPlain(k);
    if Present(mo, k) && Present(mn, k) {
      GetSucceedsOnValid(before, k);
      GetSucceedsOnValid(after, k);
      ValidFieldValid(t, mn, k);
      if tv.Obj? {
        var ov := Get(before, k).value;
        var nv := Get(after, k).value;
        assert ov.dict == DictView(path, tv, mo[k]);
        assert nv.dict == DictView(path, tv, mn[k]);
        if mo[k] != mn[k] {
          DeltaRoundTrip(ov.dict, nv.dict);
          var sub := CalculateDelta(ov.dict, nv.dict).value;
          assert ShapeOf(tv, sub.data) == AsDict(tv);
          WrapValidGivesWriteCheck(path, sub.data, tv);
        }
      } else {
        WrapValidGivesWriteCheck(path, mn[k], tv);
      }
    } else if Present(mn, k) {
      GetSucceedsOnValid(after, k);
      ValidFieldValid(t, mn, k);
      WrapValidGivesWriteCheck(path, mn[k], tv);
    }
  }

  /** What the round trip needs of the delta: a valid view under the same
      template whose every entry has the facts above, and which leaves out
      only keys that did not change. */
  predicate DeltaFits(before: DictView, after: DictView, delta: DictView)
    requires before.data.Obj? && after.data.Obj? && before.template.Obj?
  {
    var mo := before.data.fields;
    var mn := after.data.fields;
    && delta.typeName == before.typeName && delta.template == before.template
    && delta.data.Obj? && IsValidDict(delta) && PatchPlain(delta.template, delta.data)
    && delta.data.fields.Keys <= before.template.fields.Keys
    && (forall k :: k in delta.data.fields ==>
          && (delta.data.fields[k].Null? ==> Present(mo, k) && !Present(mn, k))
          && EntryFacts(before, after, k, Some(delta.data.fields[k])))
    && (forall k :: k in before.template.fields && k !in delta.data.fields ==>
          && (Present(mo, k) <==> Present(mn, k))
          && (Present(mo, k) ==> mo[k] == mn[k]))
  }

  /** The delta exists and fits. */
  lemma {:induction false} DeltaExists(before: DictView, after: DictView)
    requires RoundTripReady(before, after)
    ensures PlainKeys(before.template)
    ensures CalculateDelta(before, after).Success?
    ensures DeltaFits(before, after, CalculateDelta(before, after).value)
    decreases before.data, 1
  {
    var t := before.template;
    FixedShapeIsPlain(t);
    forall k | k in t.fields
      ensures DeltaEntry(before, after, k).Success?
      ensures EntryFacts(before, after, k, DeltaEntry(before, after, k).value)
    {
      EntryRoundTrip(before, after, k);
    }
    var delta := CalculateDelta(before, after).value;
    var e := delta.data.fields;
    forall k | k in e
      ensures EntryFacts(before, after, k, Some(e[k]))
    {
      assert DeltaEntry(before, after, k).value == Some(e[k]);
    }
    forall k | k in e
      ensures FieldValid(t.fields[k], e[k])
    {
    }
    DictValidLocal(t, e);
    forall k | k in e && ShapeOf(t.fields[k], e[k]).AsDict?
      ensures PatchPlain(ShapeOf(t.fields[k], e[k]).template, e[k])
    {
      assert !e[k].Null? ==> ShapeOf(t.fields[k], e[k]) == AsDict(t.fields[k]);
    }
  }

  /** Per delta key: the patch step succeeds; a null entry deletes, any
      other stores a value that fits and agrees with the new view. */
  lemma PatchRoundTrip(before: DictView, after: DictView, delta: DictView, k: string)
    requires RoundTripReady(before, after) && PlainKeys(before.template)
    requires delta.typeName == before.typeName && delta.template == before.template
    requires delta.data.Obj? && PatchPlain(delta.template, delta.data)
    requires k in delta.data.fields && k in before.template.fields
    requires delta.data.fields[k].Null? ==> Present(before.data.fields, k)
    requires EntryFacts(before, after, k, Some(delta.data.fields[k]))
    ensures PatchEntry(before, delta, k).Success?
    ensures var tv := before.template.fields[k];
            var p := PatchEntry(before, delta, k).value;
            && (delta.data.fields[k].Null? ==> p.None?)
            && (!delta.data.fields[k].Null? ==>
                  && p.Some? && !p.value.Null?
                  && FieldValid(tv, p.value)
                  && ValueAgree(tv, p.value, after.data.fields[k]))
  {
    var t := before.template;
    var tv := t.fields[k];
    var e := delta.data.fields;
    var mo := before.data.fields;
    var path := ElementLabel(before.typeName, t, k);
    TranslateFixesPlain(k);
    if !e[k].Null? {
      if tv.Obj? {
        assert ShapeOf(tv, e[k]) == AsDict(tv);
        var value := Get(delta, k).value;
        assert value.dict == DictView(path, tv, e[k]);
        GetSucceedsOnValid(before, k);
        var current := Get(before, k).value;
        assert current.dict == DictView(path, tv, mo[k]);
        var patched := AddDelta(current.dict, value.dict).value;
        assert ShapeOf(tv, patched.data) == AsDict(tv);
        WrapValidGivesWriteCheck(path, patched.data, tv);
      } else {
        WrapValidGivesWriteCheck(path, e[k], tv);
      }
    }
  }

  /** Every patch step of a fitting delta succeeds. */
  lemma PatchSteps(before: DictView, after: DictView, delta: DictView)
    requires RoundTripReady(before, after) && PlainKeys(before.template)
    requires DeltaFits(before, after, delta)
    ensures forall k :: k in delta.data.fields ==>
              && PatchEntry(before, delta, k).Success?
              && (delta.data.fields[k].Null? ==> PatchEntry(before, delta, k).value.None?)
              && (!delta.data.fields[k].Null? ==>
                    var p := PatchEntry(before, delta, k).value;
                    && p.Some? && !p.value.Null?
                    && FieldValid(before.template.fields[k], p.value)
                    && ValueAgree(before.template.fields[k], p.value, after.data.fields[k]))
  {
    forall k | k in delta.data.fields
      ensures PatchEntry(before, delta, k).Success?
      ensures delta.data.fields[k].Null? ==> PatchEntry(before, delta, k).value.None?
      ensures !delta.data.fields[k].Null? ==>
                var p := PatchEntry(before, delta, k).value;
                && p.Some? && !p.value.Null?
                && FieldValid(before.template.fields[k], p.value)
                && ValueAgree(before.template.fields[k], p.value, after.data.fields[k])
    {
      PatchRoundTrip(before, after, delta, k);
    }
  }

  /** The fields of a valid view under a fixed-shape template are declared
      and fit, and unchanged ones agree with the new view. */
  lemma OldFieldsFit(before: DictView, after: DictView, delta: DictView)
    requires RoundTripReady(before, after) && PlainKeys(before.template)
    requires DeltaFits(before, after, delta)
    ensures forall k :: k in before.data.fields ==>
              k in before.template.fields && FieldValid(before.template.fields[k], before.data.fields[k])
    ensures forall k :: k in before.template.fields && Present(before.data.fields, k) && k !in delta.data.fields ==>
              ValueAgree(before.template.fields[k], before.data.fields[k], after.data.fields[k])
  {
    var t := before.template;
    var mo := before.data.fields;
    forall k | k in mo
      ensures k in t.fields && FieldValid(t.fields[k], mo[k])
    {
      ValidFieldsFit(t, mo, k);
      ValidFieldValid(t, mo, k);
    }
    forall k | k in t.fields && Present(mo, k) && k !in delta.data.fields
      ensures ValueAgree(t.fields[k], mo[k], after.data.fields[k])
    {
      if t.fields[k].Obj? && mo[k].Obj? {
        AgreeReflexive(t.fields[k], mo[k].fields);
      }
    }
  }

  /** Patching the old view with a fitting delta gives a valid view that
      agrees with the new one. */
  lemma PatchApplies(before: DictView, after: DictView, delta: DictView)
    requires RoundTripReady(before, after) && PlainKeys(before.template)
    requires DeltaFits(before, after, delta)
    ensures var r := AddDelta(before, delta);
            && r.Success?
            && r.value.typeName == after.typeName && r.value.template == after.template
            && IsValidDict(r.value) && r.value.data.Obj?
            && Agree(before.template, r.value.data.fields, after.data.fields)
  {
    OldFieldsFit(before, after, delta);
    if delta.data.fields != map[] {
      PatchSteps(before, after, delta);
      PatchedFits(before, after, delta);
    }
  }

  /** The non-empty case: the patched map is valid and agrees. */
  lemma PatchedFits(before: DictView, after: DictView, delta: DictView)
    requires RoundTripReady(before, after) && PlainKeys(before.template)
    requires DeltaFits(before, after, delta) && delta.data.fields != map[]
    requires forall k :: k in before.data.fields ==>
               k in before.template.fields && FieldValid(before.template.fields[k], before.data.fields[k])
    requires forall k :: k in before.template.fields && Present(before.data.fields, k) && k !in delta.data.fields ==>
               ValueAgree(before.template.fields[k], before.data.fields[k], after.data.fields[k])
    requires forall k :: k in delta.data.fields ==>
              && PatchEntry(before, delta, k).Success?
              && (delta.data.fields[k].Null? ==> PatchEntry(before, delta, k).value.None?)
              && (!delta.data.fields[k].Null? ==>
                    var p := PatchEntry(before, delta, k).value;
                    && p.Some? && !p.value.Null?
                    && FieldValid(before.template.fields[k], p.value)
                    && ValueAgree(before.template.fields[k], p.value, after.data.fields[k]))
    ensures var r := AddDelta(before, delta);
            && r.Success?
            && r.value.typeName == after.typeName && r.value.template == after.template
            && IsValidDict(r.value) && r.value.data.Obj?
            && Agree(before.template, r.value.data.fields, after.data.fields)
  {
    AddDeltaIsPatched(before, delta);
    PatchedAgrees(before, after, delta);
    PatchedValid(before, delta);
  }

  /** The patched fields, under the old template, form a valid view. */
  lemma PatchedValid(before: DictView, delta: DictView)
    requires IsValidDict(before) && PlainKeys(before.template) && before.template.Obj? && before.data.Obj?
    requires delta.data.Obj? && PatchPlain(delta.template, delta.data)
    requires forall k :: k in before.data.fields ==>
               k in before.template.fields && FieldValid(before.template.fields[k], before.data.fields[k])
    requires forall k :: k in delta.data.fields ==>
              && k in before.template.fields
              && PatchEntry(before, delta, k).Success?
              && (PatchEntry(before, delta, k).value.Some? ==>
                    FieldValid(before.template.fields[k], PatchEntry(before, delta, k).value.value))
    ensures IsValidDict(before.(data := Obj(Patched(before, delta))))
  {
    var t := before.template;
    var pm := Patched(before, delta);
    forall k | k in pm
      ensures k in t.fields && FieldValid(t.fields[k], pm[k])
    {
      if k in delta.data.fields {
        var p := PatchEntry(before, delta, k).value;
        assert p.Some? && pm[k] == p.value;
      } else {
        assert pm[k] == before.data.fields[k];
      }
    }
    DictValidLocal(t, pm);
  }

  /** The patched fields agree with the new view, key by key. */
  lemma PatchedAgrees(before: DictView, after: DictView, delta: DictView)
    requires RoundTripReady(before, after) && PlainKeys(before.template)
    requires DeltaFits(before, after, delta)
    requires forall k :: k in before.template.fields && Present(before.data.fields, k) && k !in delta.data.fields ==>
               ValueAgree(before.template.fields[k], before.data.fields[k], after.data.fields[k])
    requires forall k :: k in delta.data.fields ==>
              && PatchEntry(before, delta, k).Success?
              && (delta.data.fields[k].Null? ==> PatchEntry(before, delta, k).value.None?)
              && (!delta.data.fields[k].Null? ==>
                    var p := PatchEntry(before, delta, k).value;
                    && p.Some? && !p.value.Null?
                    && ValueAgree(before.template.fields[k], p.value, after.data.fields[k]))
    ensures Agree(before.template, Patched(before, delta), after.data.fields)
  {
  }

  /** When every step succeeds on a valid view, add_delta returns the
      patched data under the old type name and template. */
  lemma AddDeltaIsPatched(before: DictView, delta: DictView)
    requires IsValidDict(before) && before.data.Obj? && delta.data.Obj? && delta.data.fields != map[]
    requires PatchPlain(delta.template, delta.data)
    requires forall k :: k in delta.data.fields ==> PatchEntry(before, delta, k).Success?
    ensures AddDelta(before, delta) == Success(before.(data := Obj(Patched(before, delta))))
  {
  }

  /** The round trip: for fixed-shape templates and no mapping-typed field
      that appears only in the new view, the delta exists and is a valid
      view, and patching the old view with it succeeds and gives a valid
      view that agrees with the new one on every declared key. */
  lemma {:induction false} DeltaRoundTrip(before: DictView, after: DictView)
    requires RoundTripReady(before, after)
    ensures PlainKeys(before.template)
    ensures CalculateDelta(before, after).Success?
    ensures var delta := CalculateDelta(before, after).value;
            IsValidDict(delta) && PatchPlain(delta.template, delta.data)
    ensures var delta := CalculateDelta(before, after).value;
            var r := AddDelta(before, delta);
            && r.Success?
            && r.value.typeName == after.typeName && r.value.template == after.template
            && IsValidDict(r.value) && r.value.data.Obj?
            && Agree(before.template, r.value.data.fields, after.data.fields)
    decreases before.data, 2
  {
    DeltaExists(before, after);
    PatchApplies(before, after, CalculateDelta(before, after).value);
  }

  // ---------------------------------------------------------------------
  // Examples

  /** The document of the tags example, before and after adding a tag. */
  function TagsTemplate(): Json {
    Obj(map["name" := Str(""), "tags" := Arr([Str("")])])
  }

  function TagsView(tags: seq<Json>): DictView {
    DictView("Doc", TagsTemplate(), Obj(map["name" := Str("A"), "tags" := Arr(tags)]))
  }

  lemma TagsViewValid(tags: seq<Json>)
    requires forall i :: 0 <= i < |tags| ==> tags[i].Str?
    ensures IsValidDict(TagsView(tags))
  {
    var t := TagsTemplate();
    var d := TagsView(tags).data;
    assert Translate("tags") == "tags";
    assert ListValid(Str(""), Arr(tags)) by {
      forall i | 0 <= i < |tags|
        ensures ItemValid(Str(""), Arr(tags).elems[i])
      {
      }
    }
    assert KeyValid(t, d, "tags");
    assert KeyValid(t, d, "name");
  }

  lemma TagsValid(before: DictView, after: DictView)
    requires before == TagsView([Str("x")]) && after == TagsView([Str("x"), Str("y")])
    ensures IsValidDict(before) && IsValidDict(after) && PlainKeys(before.template)
  {
    TagsViewValid([Str("x")]);
    TagsViewValid([Str("x"), Str("y")]);
  }

  /** The unchanged name has no entry. */
  lemma TagsNameEntry(before: DictView, after: DictView)
    requires before == TagsView([Str("x")]) && after == TagsView([Str("x"), Str("y")])
    requires IsValidDict(before) && IsValidDict(after) && PlainKeys(before.template)
    ensures DeltaEntry(before, after, "name") == Success(None)
  {
    assert before.data.fields["name"] == after.data.fields["name"];
  }

  /** The changed list is stored whole. */
  lemma TagsListEntry(before: DictView, after: DictView)
    requires before == TagsView([Str("x")]) && after == TagsView([Str("x"), Str("y")])
    requires IsValidDict(before) && IsValidDict(after) && PlainKeys(before.template)
    ensures DeltaEntry(before, after, "tags") == Success(Some(Arr([Str("x"), Str("y")])))
  {
    DeltaEntryRules(before, after, "tags");
  }

  /** The delta of two views of the example's template, given its entries. */
  lemma TagsDeltaOfEntries(before: DictView, after: DictView)
    requires IsValidDict(before) && IsValidDict(after) && PlainKeys(before.template)
    requires before.template == after.template == TagsTemplate()
    requires before.typeName == after.typeName == "Doc"
    requires DeltaEntry(before, after, "name") == Success(None)
    requires DeltaEntry(before, after, "tags") == Success(Some(Arr([Str("x"), Str("y")])))
    ensures CalculateDelta(before, after)
            == Success(DictView("Doc", TagsTemplate(), Obj(map["tags" := Arr([Str("x"), Str("y")])])))
  {
    assert TagsTemplate().fields.Keys == {"name", "tags"};
    DeltaOfEntries(before, after, map["tags" := Arr([Str("x"), Str("y")])]);
  }

  /** A changed list is stored whole and an unchanged field is left out. */
  lemma TagsDelta(before: DictView, after: DictView)
    requires before == TagsView([Str("x")]) && after == TagsView([Str("x"), Str("y")])
    ensures IsValidDict(before) && IsValidDict(after) && PlainKeys(before.template)
    ensures CalculateDelta(before, after)
            == Success(DictView("Doc", TagsTemplate(), Obj(map["tags" := Arr([Str("x"), Str("y")])])))
  {
    TagsValid(before, after);
    TagsNameEntry(before, after);
    TagsListEntry(before, after);
    TagsDeltaOfEntries(before, after);
  }

  /** The two tag documents meet the round trip's hypotheses. */
  lemma TagsReady(before: DictView, after: DictView)
    requires before == TagsView([Str("x")]) && after == TagsView([Str("x"), Str("y")])
    requires IsValidDict(before) && IsValidDict(after)
    ensures RoundTripReady(before, after)
  {
  }

  /** On the example, agreement with the new view is equality. */
  lemma TagsAgreeIsEqual(pm: map<string, Json>)
    requires DictValid(TagsTemplate(), Obj(pm))
    requires Agree(TagsTemplate(), pm, TagsView([Str("x"), Str("y")]).data.fields)
    ensures pm == TagsView([Str("x"), Str("y")]).data.fields
  {
    var t := TagsTemplate();
    forall k | k in pm
      ensures k in t.fields
    {
      ValidFieldsFit(t, pm, k);
    }
    assert t.fields.Keys == {"name", "tags"};
  }

  /** Patching with that delta reproduces the new view exactly. */
  lemma TagsPatch(before: DictView, after: DictView)
    requires before == TagsView([Str("x")]) && after == TagsView([Str("x"), Str("y")])
    ensures PatchPlain(TagsTemplate(), Obj(map["tags" := Arr([Str("x"), Str("y")])]))
    ensures AddDelta(before, DictView("Doc", TagsTemplate(), Obj(map["tags" := Arr([Str("x"), Str("y")])])))
            == Success(after)
  {
    TagsDelta(before, after);
    TagsReady(before, after);
    DeltaRoundTrip(before, after);
    TagsAgreeIsEqual(AddDelta(before, CalculateDelta(before, after).value).value.data.fields);
  }

  /** The line-253 defect under a list template: dropping the tags, the
      as-written null marker fails its write check (a sequence view is built
      over null), while the corrected entry is the null marker. */
  lemma ListDeletionMarkerCounterexample(before: DictView, after: DictView)
    requires before == TagsView([Str("x")])
    requires after == DictView("Doc", TagsTemplate(), Obj(map["name" := Str("A")]))
    ensures IsValidDict(before) && IsValidDict(after) && PlainKeys(before.template)
    ensures StoreAsWritten(before, after, DictView("Doc", TagsTemplate(), Obj(map[])), "tags", None).Failure?
    ensures DeltaEntry(before, after, "tags") == Success(Some(Null))
  {
    TagsDropValid(before, after);
    TagsDropAsWritten(before, after);
    DeltaEntryRules(before, after, "tags");
  }

  /** The tag document, and the same document without tags, are valid. */
  lemma TagsDropValid(before: DictView, after: DictView)
    requires before == TagsView([Str("x")])
    requires after == DictView("Doc", TagsTemplate(), Obj(map["name" := Str("A")]))
    ensures IsValidDict(before) && IsValidDict(after) && PlainKeys(before.template)
  {
    TagsValid(before, TagsView([Str("x"), Str("y")]));
    var m := map["name" := Str("A")];
    assert m.Keys == {"name"};
    DictValidLocal(TagsTemplate(), m);
  }

  /** As written, the null marker for the dropped tags is refused. */
  lemma TagsDropAsWritten(before: DictView, after: DictView)
    requires before == TagsView([Str("x")])
    requires after == DictView("Doc", TagsTemplate(), Obj(map["name" := Str("A")]))
    ensures StoreAsWritten(before, after, DictView("Doc", TagsTemplate(), Obj(map[])), "tags", None).Failure?
  {
    var t := TagsTemplate();
    assert Translate("tags") == "tags";
    assert Contains(before, "tags") && !Contains(after, "tags");
    assert NameDeclared(t, "tags") && RefusesNull(Resolve(t, "tags"));
  }

  // ---------------------------------------------------------------------
  // The source as written, for a template key not present in both views

  /** Lines 252-255 as written: a key only the old view holds gets null
      through the validated write; a key only the new view holds gets the
      value an earlier iteration last assigned to `new_value`, if any. `leftover` is that
      value (already unwrapped), None when no earlier key bound it. */
  function StoreAsWritten(before: DictView, after: DictView, delta: DictView, k: string,
                          leftover: Option<Json>): (r: Result<DictView>)
    requires before.data.Obj? && after.data.Obj? && delta.data.Obj?
    requires !(Contains(before, k) && Contains(after, k))
    ensures Contains(after, k) && !Contains(before, k) && leftover.None? ==>
              r == Failure(UnboundNewValue)
    ensures Contains(after, k) && !Contains(before, k) && r.Success? ==>
              && leftover.Some?
              && r.value == delta.(data := Obj(delta.data.fields[Translate(k) := leftover.value]))
    // the null marker of an old-only key goes through the validating write:
    // it fails exactly under a template value that refuses null
    ensures Contains(before, k) && !delta.template.Null? && NameDeclared(delta.template, Translate(k)) ==>
              (r.Failure? <==> RefusesNull(Resolve(delta.template, Translate(k))))
    ensures Contains(before, k) && r.Success? ==>
              r.value == delta.(data := Obj(delta.data.fields[Translate(k) := Null]))
  {
    if Contains(before, k) then
      if !delta.template.Null? && NameDeclared(delta.template, Translate(k)) then
        NullWriteCheck(ElementLabel(delta.typeName, delta.template, Translate(k)),
                       Resolve(delta.template, Translate(k)));
        Set(delta, k, Null)
      else Set(delta, k, Null)
    else if Contains(after, k) then
      match leftover
      case None => Failure(UnboundNewValue)
      case Some(v) => Set(delta, k, v)
    else Success(delta)
  }

  /** Line 255 as written stores a stale value, or fails when no earlier
      key bound one; the corrected entry stores the new view's value. */
  lemma LeftoverNewValueCounterexample()
    ensures var t := Obj(map["a" := Str("")]);
            var before := DictView("Doc", t, Obj(map[]));
            var after := DictView("Doc", t, Obj(map["a" := Str("x")]));
            var empty := DictView("Doc", t, Obj(map[]));
            && StoreAsWritten(before, after, empty, "a", None) == Failure(UnboundNewValue)
            && StoreAsWritten(before, after, empty, "a", Some(Str("y")))
                 == Success(DictView("Doc", t, Obj(map["a" := Str("y")])))
            && IsValidDict(before) && IsValidDict(after) && PlainKeys(t)
            && CalculateDelta(before, after) == Success(DictView("Doc", t, Obj(map["a" := Str("x")])))
  {
    var t := Obj(map["a" := Str("")]);
    var before := DictView("Doc", t, Obj(map[]));
    var after := DictView("Doc", t, Obj(map["a" := Str("x")]));
    assert Translate("a") == "a";
    assert KeyValid(t, after.data, "a");
    assert t.fields.Keys == {"a"};
    assert DeltaEntry(before, after, "a") == Success(Some(Str("x")));
    DeltaOfEntries(before, after, map["a" := Str("x")]);
  }

  // ---------------------------------------------------------------------
  // A document with one nested mapping field

  function NestedTemplate(): Json {
    Obj(map["a" := Obj(map["b" := Str("")])])
  }

  function NestedView(fields: map<string, Json>): DictView {
    DictView("Doc", NestedTemplate(), Obj(fields))
  }

  /** The document with the nested field set, and the one without it. */
  lemma NestedValid(full: DictView, empty: DictView)
    requires full == NestedView(map["a" := Obj(map["b" := Str("x")])])
    requires empty == NestedView(map[])
    ensures IsValidDict(full) && IsValidDict(empty)
    ensures FixedShape(full.template) && PlainKeys(full.template)
  {
    var tv := Obj(map["b" := Str("")]);
    var v := Obj(map["b" := Str("x")]);
    assert Translate("a") == "a";
    assert Translate("b") == "b";
    assert KeyValid(tv, v, "b");
    assert ShapeOf(tv, v) == AsDict(tv);
    assert KeyValid(full.template, full.data, "a");
    FixedShapeIsPlain(full.template);
  }

  /** The delta of two views of the nested template, given its one entry. */
  lemma NestedDeltaOfEntry(before: DictView, after: DictView, e: Json)
    requires IsValidDict(before) && IsValidDict(after) && PlainKeys(before.template)
    requires before.template == after.template == NestedTemplate()
    requires before.typeName == after.typeName == "Doc"
    requires DeltaEntry(before, after, "a") == Success(Some(e))
    ensures CalculateDelta(before, after) == Success(NestedView(map["a" := e]))
  {
    assert NestedTemplate().fields.Keys == {"a"};
    DeltaOfEntries(before, after, map["a" := e]);
  }

  /** A mapping-typed field that only the new view holds: the delta stores
      it whole, and the patch then fails, because the step reads the old
      view's field (null) to patch it recursively. */
  lemma DictAdditionCounterexample(before: DictView, after: DictView)
    requires before == NestedView(map[])
    requires after == NestedView(map["a" := Obj(map["b" := Str("x")])])
    ensures IsValidDict(before) && IsValidDict(after) && PlainKeys(before.template)
    ensures CalculateDelta(before, after) == Success(after)
    ensures PatchPlain(after.template, after.data)
    ensures AddDelta(before, after) == Failure(Rejected("Doc"))
  {
    NestedValid(after, before);
    NestedAdditionDelta(before, after);
    NestedPatchFails(before, after);
  }

  /** The delta from the empty document to the filled one is the filled one. */
  lemma NestedAdditionDelta(before: DictView, after: DictView)
    requires before == NestedView(map[])
    requires after == NestedView(map["a" := Obj(map["b" := Str("x")])])
    requires IsValidDict(before) && IsValidDict(after) && PlainKeys(before.template)
    ensures CalculateDelta(before, after) == Success(after)
  {
    DeltaEntryRules(before, after, "a");
    NestedDeltaOfEntry(before, after, after.data.fields["a"]);
  }

  /** The failing step of that patch. */
  lemma NestedPatchFails(before: DictView, delta: DictView)
    requires before == NestedView(map[])
    requires delta == NestedView(map["a" := Obj(map["b" := Str("x")])])
    requires IsValidDict(delta) && PatchPlain(delta.template, delta.data)
    ensures PatchEntry(before, delta, "a").Failure?
    ensures AddDelta(before, delta) == Failure(Rejected("Doc"))
  {
    var tv := Obj(map["b" := Str("")]);
    assert Translate("a") == "a";
    assert "b" in tv.fields;
    assert ShapeOf(tv, delta.data.fields["a"]) == AsDict(tv);
    assert Get(before, "a") == Success(Leaf(Null));
  }

  /** Line 253 as written refuses the deletion marker under a non-empty
      mapping template; the corrected entry stores it, and the patch
      deletes the field. */
  lemma DeletionMarkerCounterexample(before: DictView, after: DictView)
    requires before == NestedView(map["a" := Obj(map["b" := Str("x")])])
    requires after == NestedView(map[])
    ensures StoreAsWritten(before, after, NestedView(map[]), "a", None).Failure?
    ensures IsValidDict(before) && IsValidDict(after) && PlainKeys(before.template)
    ensures CalculateDelta(before, after) == Success(NestedView(map["a" := Null]))
    ensures PatchPlain(NestedTemplate(), Obj(map["a" := Null]))
    ensures AddDelta(before, NestedView(map["a" := Null])) == Success(after)
  {
    NestedValid(before, after);
    NestedDeletionDelta(before, after);
    NestedDeletionPatch(before, after);
  }

  /** The delta from the filled document to the empty one marks "a" null. */
  lemma NestedDeletionDelta(before: DictView, after: DictView)
    requires before == NestedView(map["a" := Obj(map["b" := Str("x")])])
    requires after == NestedView(map[])
    requires IsValidDict(before) && IsValidDict(after) && PlainKeys(before.template)
    ensures StoreAsWritten(before, after, NestedView(map[]), "a", None).Failure?
    ensures CalculateDelta(before, after) == Success(NestedView(map["a" := Null]))
  {
    assert Translate("a") == "a";
    assert Contains(before, "a") && !Contains(after, "a");
    NullMarkerRejected(NestedView(map[]));
    DeltaEntryRules(before, after, "a");
    NestedDeltaOfEntry(before, after, Null);
  }

  /** Under the nested template, storing null for "a" fails its write check. */
  lemma NullMarkerRejected(delta: DictView)
    requires delta == NestedView(map[])
    ensures Set(delta, "a", Null).Failure?
  {
    var tv := Obj(map["b" := Str("")]);
    assert Translate("a") == "a";
    assert NameDeclared(NestedTemplate(), "a") && Resolve(NestedTemplate(), "a") == tv;
    assert !DictValid(tv, Null);
    assert "b" in tv.fields && tv != Obj(map[]);
    assert WriteCheck(ElementLabel("Doc", NestedTemplate(), "a"), Null, tv).Failure?;
  }

  /** Emptying the filled document meets the round trip's hypotheses. */
  lemma NestedReady(before: DictView, after: DictView)
    requires before == NestedView(map["a" := Obj(map["b" := Str("x")])])
    requires after == NestedView(map[])
    requires IsValidDict(before) && IsValidDict(after) && FixedShape(before.template)
    ensures RoundTripReady(before, after)
  {
  }

  /** Patching the filled document with the null marker empties it. */
  lemma NestedDeletionPatch(before: DictView, after: DictView)
    requires before == NestedView(map["a" := Obj(map["b" := Str("x")])])
    requires after == NestedView(map[])
    requires IsValidDict(before) && IsValidDict(after) && FixedShape(before.template)
    requires CalculateDelta(before, after) == Success(NestedView(map["a" := Null]))
    ensures PatchPlain(NestedTemplate(), Obj(map["a" := Null]))
    ensures AddDelta(before, NestedView(map["a" := Null])) == Success(after)
  {
    NestedReady(before, after);
    DeltaRoundTrip(before, after);
    var r := AddDelta(before, NestedView(map["a" := Null])).value;
    assert r.data.fields == map[];
  }
}

=== FILE: json.dfy ===
/** JSON-shaped values, the error outcomes of the view layer, and the
    field-name translation applied at the attribute-access boundary. */
module JsonModel {

  /** One value of the JSON data model. Raw data and templates share this
      type: a template is interpreted structurally (see module Template).
      Numbers are unbounded integers; the int/float distinction is not kept. */
  datatype Json =
    | Null
    | Num(n: int)
    | Bool(b: bool)
    | Str(s: string)
    | Arr(elems: seq<Json>)
    | Obj(fields: map<string, Json>)

  /** The exceptions the view layer raises, one constructor per cause. */
  datatype Error =
      /** the name check: a fixed-field template does not declare the name */
    | UnknownField(typeName: string, name: string)
      /** the shallow check: wrong category or a value outside a closed choice */
    | ShapeMismatch(path: string)
      /** constructing a nested view, a nested delta or a patch failed; which
          field is reported first depends on dictionary iteration order */
    | Rejected(path: string)
      /** a mapping operation reached data that is not a mapping */
    | NotAMapping(path: string)
      /** deleting a key that is not in the data */
    | MissingKey(name: string)
      /** a list index outside the list (negative indices count from the end) */
    | IndexOutOfRange(index: int)
      /** a delta between views of different type names or templates */
    | IncompatibleDelta
      /** iterating the keys of a null template */
    | NotIterable(path: string)
      /** reading a local variable that no earlier statement assigned */
    | UnboundNewValue

  /** Success/Failure outcome, usable with `:-`. */
  datatype Result<+T> = Success(value: T) | Failure(error: Error) {

    predicate IsFailure() {
      Failure?
    }

    function PropagateFailure<U>(): Result<U>
      requires Failure?
    {
      Failure(error)
    }

    function Extract(): T
      requires Success?
    {
      value
    }
  }

  /** An optional value: a per-key delta or patch step may store nothing. */
  datatype Option<+T> = None | Some(value: T)

  /** True iff the key is in the mapping and holds a non-null value; this is
      what `in` means on a mapping view. */
  predicate Present(m: map<string, Json>, k: string) {
    k in m && !m[k].Null?
  }

  /** The attribute-name convention: every underscore becomes a space. */
  function Translate(name: string): (r: string)
    ensures |r| == |name|
    ensures forall i :: 0 <= i < |name| ==> r[i] == (if name[i] == '_' then ' ' else name[i])
    ensures '_' !in r
  {
    if name == [] then []
    else [if name[0] == '_' then ' ' else name[0]] + Translate(name[1..])
  }

  /** A name without underscores is its own translation, and only such a
      name is. */
  lemma {:induction false} TranslateFixesPlain(name: string)
    ensures Translate(name) == name <==> '_' !in name
  {
    if name != [] {
      TranslateFixesPlain(name[1..]);
      assert name == [name[0]] + name[1..];
    }
  }

  /** Translating twice is translating once. */
  lemma TranslateIdempotent(name: string)
    ensures Translate(Translate(name)) == Translate(name)
  {
    TranslateFixesPlain(Translate(name));
  }
}

=== FILE: mapping_view.dfy ===
/** The mapping view (JSONDict): attribute-style read, validated write,
    delete and presence test. Every operation returns a new value; a failed
    write returns an error and no new data, so the caller's view is left as
    it was. */
module MappingView {
  import opened JsonModel
  import opened Template
  import opened Views

  /** Read a field (`view.name` / `view[name]`). The name is translated;
      an absent or null field reads as null; anything else is wrapped by the
      shared policy, which validates the child view it builds. */
  function Get(view: DictView, name: string): (r: Result<Node>)
    requires view.data.Obj?
    ensures var key := Translate(name);
            !NameDeclared(view.template, key) ==> r == Failure(UnknownField(view.typeName, key))
    ensures var key := Translate(name);
            NameDeclared(view.template, key) && !Present(view.data.fields, key) ==>
              r == Success(Leaf(Null))
    ensures var key := Translate(name);
            NameDeclared(view.template, key) && Present(view.data.fields, key) ==>
              && (r.Success? <==> WrapValid(Resolve(view.template, key), view.data.fields[key]))
              && (r.Success? ==> Unwrap(r.value) == view.data.fields[key])
    // an all-accepting `{}` template yields a child mapping view with no template
    ensures var key := Translate(name);
            r.Success? && Present(view.data.fields, key) &&
            Resolve(view.template, key) == Obj(map[]) ==>
              r.value.DictNode? && r.value.dict.template.Null?
    // an all-accepting `[]` template yields a child sequence view with no item template
    ensures var key := Translate(name);
            r.Success? && Present(view.data.fields, key) &&
            Resolve(view.template, key) == Arr([]) ==>
              r.value.ListNode? && r.value.list.itemTemplate.Null?
    // any other mapping template wraps the value in a mapping view under it
    ensures var key := Translate(name);
            r.Success? && Present(view.data.fields, key) &&
            Resolve(view.template, key).Obj? && Resolve(view.template, key) != Obj(map[]) ==>
              r.value.DictNode? && r.value.dict.template == Resolve(view.template, key)
    // a one-element list template wraps the value in a sequence view of that item template
    ensures var key := Translate(name);
            r.Success? && Present(view.data.fields, key) &&
            Resolve(view.template, key).Arr? && |Resolve(view.template, key).elems| == 1 ==>
              r.value.ListNode? && r.value.list.itemTemplate == Resolve(view.template, key).elems[0]
    // with no template the data decides: mapping, list, or the raw value
    ensures var key := Translate(name);
            r.Success? && Present(view.data.fields, key) && Resolve(view.template, key).Null? ==>
              && (view.data.fields[key].Obj? ==> r.value.DictNode? && r.value.dict.template.Null?)
              && (view.data.fields[key].Arr? ==> r.value.ListNode? && r.value.list.itemTemplate.Null?)
              && (!view.data.fields[key].Obj? && !view.data.fields[key].Arr? ==>
                    r.value == Leaf(view.data.fields[key]))
    // primitive and choice templates return the value unchanged
    ensures var key := Translate(name);
            r.Success? && Present(view.data.fields, key) &&
            !Resolve(view.template, key).Null? && !IsContainerTemplate(Resolve(view.template, key)) ==>
              r.value == Leaf(view.data.fields[key])
    // a child view is named after its field and sits on the field's own data
    ensures var key := Translate(name);
            r.Success? && r.value.DictNode? ==>
              && key in view.data.fields
              && r.value.dict.data == view.data.fields[key]
              && r.value.dict.typeName == ElementLabel(view.typeName, view.template, key)
              && IsValidDict(r.value.dict)
  {
    var key := Translate(name);
    var _ :- CheckName(view.typeName, view.template, key);
    if !Present(view.data.fields, key) then Success(Leaf(Null))
    else Wrap(ElementLabel(view.typeName, view.template, key),
              Resolve(view.template, key), view.data.fields[key])
  }

  /** `name in view`: the raw key is present with a non-null value. Unlike
      a read, the name is NOT translated. */
  function Contains(view: DictView, name: string): bool
    requires view.data.Obj?
  {
    Present(view.data.fields, name)
  }

  /** Write a field (`view.name = value`). With a template: the name check,
      the shallow check and, for a non-empty container template, a transient
      child view over the value all run before the write. Without a template
      nothing is checked. Only the translated key changes. */
  function Set(view: DictView, name: string, value: Json): (r: Result<DictView>)
    requires view.data.Obj?
    ensures r.Success? ==>
              r.value == view.(data := Obj(view.data.fields[Translate(name) := value]))
    ensures view.template.Null? ==> r.Success?
    ensures var key := Translate(name);
            !view.template.Null? && !NameDeclared(view.template, key) ==>
              r == Failure(UnknownField(view.typeName, key))
    ensures var key := Translate(name);
            NameDeclared(view.template, key) && !ShallowAccepts(value, Resolve(view.template, key)) ==>
              r == Failure(ShapeMismatch(ElementLabel(view.typeName, view.template, key)))
    ensures var key := Translate(name);
            !view.template.Null? && NameDeclared(view.template, key) ==>
              (r.Success? <==>
                 WriteCheck(ElementLabel(view.typeName, view.template, key), value,
                            Resolve(view.template, key)).Success?)
  {
    var key := Translate(name);
    var updated := view.(data := Obj(view.data.fields[key := value]));
    if view.template.Null? then Success(updated)
    else
      var _ :- CheckName(view.typeName, view.template, key);
      var _ :- WriteCheck(ElementLabel(view.typeName, view.template, key), value,
                          Resolve(view.template, key));
      Success(updated)
  }

  /** Delete a field (`del view.name`): the translated name must pass the
      name check and be a key of the data. */
  function Del(view: DictView, name: string): (r: Result<DictView>)
    requires view.data.Obj?
    ensures var key := Translate(name);
            !NameDeclared(view.template, key) ==> r == Failure(UnknownField(view.typeName, key))
    ensures var key := Translate(name);
            NameDeclared(view.template, key) && key !in view.data.fields ==>
              r == Failure(MissingKey(key))
    ensures var key := Translate(name);
            NameDeclared(view.template, key) && key in view.data.fields ==>
              r == Success(view.(data := Obj(view.data.fields - {key})))
  {
    var key := Translate(name);
    var _ :- CheckName(view.typeName, view.template, key);
    if key !in view.data.fields then Failure(MissingKey(key))
    else Success(view.(data := Obj(view.data.fields - {key})))
  }

  // ---------------------------------------------------------------------
  // Reads

  /** On a constructed view, reading any name whose translation passes the
      name check succeeds: validation already built every child view. */
  lemma GetSucceedsOnValid(view: DictView, name: string)
    requires IsValidDict(view) && view.data.Obj?
    requires NameDeclared(view.template, Translate(name))
    ensures Get(view, name).Success?
  {
    var key := Translate(name);
    var t := view.template;
    var m := view.data.fields;
    if Present(m, key) && !t.Null? {
      assert KeyValid(t, view.data, key);
      TranslateIdempotent(name);
      var tv := Resolve(t, key);
      if IsContainerTemplate(tv) {
        assert ReadValid(t, view.data, key);
      } else if tv.Null? {
        assert m[key].Obj? ==> ShapeOf(tv, m[key]) == AsDict(Null);
        assert m[key].Arr? ==> ShapeOf(tv, m[key]) == AsList(Null);
      }
    } else if Present(m, key) {
      assert m[key].Obj? ==> ShapeOf(Null, m[key]) == AsDict(Null);
      assert m[key].Arr? ==> ShapeOf(Null, m[key]) == AsList(Null);
    }
  }

  /** For a declared name without underscores, `name in view` holds exactly
      when reading the name gives something other than null. */
  lemma ContainsAgreesWithGet(view: DictView, name: string)
    requires view.data.Obj? && '_' !in name
    requires NameDeclared(view.template, name)
    ensures Contains(view, name) <==> Get(view, name) != Success(Leaf(Null))
  {
    TranslateFixesPlain(name);
  }

  /** The presence test does not translate names but reads do: under no
      template, `"a_b" in view` is false while `view.a_b` finds `"a b"`. */
  lemma ContainsDoesNotTranslate()
    ensures var view := DictView("Doc", Null, Obj(map["a b" := Num(1)]));
            !Contains(view, "a_b") && Get(view, "a_b") == Success(Leaf(Num(1)))
  {
    assert Translate("a_b") == "a b";
  }

  // ---------------------------------------------------------------------
  // Writes

  /** A successful write keeps a constructed view valid, including keys
      whose translation is the written key. */
  lemma {:induction false} SetPreservesValidity(view: DictView, name: string, value: Json)
    requires IsValidDict(view) && view.data.Obj?
    requires Set(view, name, value).Success?
    ensures IsValidDict(Set(view, name, value).value)
  {
    var t := view.template;
    if !t.Null? {
      var key := Translate(name);
      var m := view.data.fields;
      var m' := m[key := value];
      var tv := Resolve(t, key);
      WriteCheckGivesWrapValid(ElementLabel(view.typeName, t, key), value, tv);
      forall k | k in m'
        ensures KeyValid(t, Obj(m'), k)
      {
        var j := Translate(k);
        if k == key {
          TranslateIdempotent(name);
        } else {
          assert KeyValid(t, view.data, k);
          if IsContainerTemplate(Resolve(t, k)) {
            assert ReadValid(t, view.data, j);
          }
        }
      }
    }
  }

  /** For a non-null value and a name without underscores, the write
      check accepts exactly the writes after which the view still
      validates. */
  lemma SetMatchesValidation(view: DictView, name: string, value: Json)
    requires IsValidDict(view) && view.template.Obj? && view.data.Obj?
    requires '_' !in name && !value.Null?
    ensures Set(view, name, value).Success? <==>
            DictValid(view.template, Obj(view.data.fields[name := value]))
  {
    TranslateFixesPlain(name);
    var t := view.template;
    var d' := Obj(view.data.fields[name := value]);
    if Set(view, name, value).Success? {
      SetPreservesValidity(view, name, value);
    } else if DictValid(t, d') {
      assert KeyValid(t, d', name);
      var tv := Resolve(t, name);
      if IsContainerTemplate(tv) {
        assert ReadValid(t, d', name);
        WrapValidGivesWriteCheck(ElementLabel(view.typeName, t, name), value, tv);
      }
      assert false;
    }
  }

  /** A write is read back: a non-null value is what the field now reads
      as, a null value reads as null, and every other field reads as before. */
  lemma SetThenGet(view: DictView, name: string, value: Json)
    requires view.data.Obj? && Set(view, name, value).Success?
    ensures var after := Set(view, name, value).value;
            && (value.Null? ==> Get(after, name) == Success(Leaf(Null)))
            && (!value.Null? ==> Get(after, name).Success? && Unwrap(Get(after, name).value) == value)
    ensures var after := Set(view, name, value).value;
            forall other :: Translate(other) != Translate(name) ==> Get(after, other) == Get(view, other)
  {
    var key := Translate(name);
    var t := view.template;
    if !value.Null? {
      if t.Null? {
        assert value.Obj? ==> ShapeOf(Null, value) == AsDict(Null);
        assert value.Arr? ==> ShapeOf(Null, value) == AsList(Null);
      } else {
        WriteCheckGivesWrapValid(ElementLabel(view.typeName, t, key), value, Resolve(t, key));
      }
    }
  }

  /** Writing null under a template is refused exactly when the field's
      template value is a non-empty mapping template or a list template
      with a non-null item template, because the write check then builds a
      child view over null. */
  lemma NullWriteRefused(view: DictView, name: string)
    requires view.data.Obj? && !view.template.Null?
    requires NameDeclared(view.template, Translate(name))
    ensures Set(view, name, Null).Failure? <==> RefusesNull(Resolve(view.template, Translate(name)))
  {
    var key := Translate(name);
    NullWriteCheck(ElementLabel(view.typeName, view.template, key), Resolve(view.template, key));
  }

  /** Yet a constructed view that holds null in such a field validates:
      construction skips null fields, the write path does not. */
  lemma {:induction false} NullFieldValid(view: DictView, name: string)
    requires IsValidDict(view) && view.template.Obj? && view.data.Obj?
    requires '_' !in name && NameDeclared(view.template, name)
    ensures DictValid(view.template, Obj(view.data.fields[name := Null]))
  {
    TranslateFixesPlain(name);
    var t := view.template;
    var d' := Obj(view.data.fields[name := Null]);
    forall k | k in d'.fields
      ensures KeyValid(t, d', k)
    {
      if k != name {
        assert KeyValid(t, view.data, k);
        if IsContainerTemplate(Resolve(t, k)) {
          assert ReadValid(t, view.data, Translate(k));
        }
      }
    }
  }

  /** Under a wildcard template every key is checked against the one
      template value: a number is refused where strings are expected. */
  lemma WildcardExample()
    ensures var view := DictView("Tags", Obj(map["" := Str("")]),
                                 Obj(map["a" := Str("x"), "b" := Str("y")]));
            && IsValidDict(view)
            && Get(view, "a") == Success(Leaf(Str("x")))
            && Set(view, "c", Num(5)) == Failure(ShapeMismatch("(element of Tags)"))
            && Set(view, "c", Str("z")).Success?
  {
    var t := Obj(map["" := Str("")]);
    var d := Obj(map["a" := Str("x"), "b" := Str("y")]);
    assert t.fields.Keys == {""};
    assert Translate("a") == "a";
    assert Translate("c") == "c";
    forall k | k in d.fields
      ensures KeyValid(t, d, k)
    {
    }
  }

  // ---------------------------------------------------------------------
  // Deletion

  /** Deleting keeps a constructed view valid. */
  lemma DelPreservesValidity(view: DictView, name: string)
    requires IsValidDict(view) && view.data.Obj?
    requires Del(view, name).Success?
    ensures IsValidDict(Del(view, name).value)
  {
    var t := view.template;
    if !t.Null? {
      var key := Translate(name);
      var d' := Del(view, name).value.data;
      forall k | k in d'.fields
        ensures KeyValid(t, d', k)
      {
        assert KeyValid(t, view.data, k);
        if IsContainerTemplate(Resolve(t, k)) {
          assert ReadValid(t, view.data, Translate(k));
        }
      }
    }
  }

  /** After a deletion the field reads as null and no other field changes. */
  lemma DelThenGet(view: DictView, name: string)
    requires view.data.Obj? && Del(view, name).Success?
    ensures var after := Del(view, name).value;
            && Get(after, name) == Success(Leaf(Null))
            && !Contains(after, Translate(name))
            && forall other :: Translate(other) != Translate(name) ==> Get(after, other) == Get(view, other)
  {
  }
}

=== FILE: sequence_view.dfy ===
/** The sequence view (JSONList): indexed read, validated item write and
    append, and deletion by index. Indices follow the host language's list
    indexing: a negative index counts from the end. */
module SequenceView {
  import opened JsonModel
  import opened Template
  import opened Views

  /** An index addresses an item of a list of length n. */
  predicate InRange(n: nat, i: int) {
    -(n as int) <= i < n
  }

  /** The position an index addresses. */
  function Position(n: nat, i: int): (p: nat)
    requires InRange(n, i)
    ensures p < n
    ensures p == i || p == i + n
  {
    if i < 0 then i + n else i
  }

  /** Read an item (`view[i]`): the same wrapping policy as a field read,
      under the single item template; a null item is wrapped too. */
  function GetItem(view: ListView, i: int): (r: Result<Node>)
    requires view.data.Arr?
    ensures !InRange(|view.data.elems|, i) <==> r == Failure(IndexOutOfRange(i))
    ensures InRange(|view.data.elems|, i) ==>
              var item := view.data.elems[Position(|view.data.elems|, i)];
              && (r.Success? <==> WrapValid(view.itemTemplate, item))
              && (r.Success? ==> Unwrap(r.value) == item)
              && (r.Success? && view.itemTemplate == Obj(map[]) ==>
                    r.value.DictNode? && r.value.dict.template.Null?)
              && (r.Success? && view.itemTemplate.Obj? && view.itemTemplate != Obj(map[]) ==>
                    r.value.DictNode? && r.value.dict.template == view.itemTemplate)
              && (r.Success? && view.itemTemplate == Arr([]) ==>
                    r.value.ListNode? && r.value.list.itemTemplate.Null?)
              && (r.Success? && view.itemTemplate.Arr? && |view.itemTemplate.elems| == 1 ==>
                    r.value.ListNode? && r.value.list.itemTemplate == view.itemTemplate.elems[0])
              && (r.Success? && !view.itemTemplate.Null? && !IsContainerTemplate(view.itemTemplate) ==>
                    r.value == Leaf(item))
              // with no item template the item's own kind decides, and the read cannot fail
              && (view.itemTemplate.Null? ==>
                    && r.Success?
                    && (item.Obj? ==> r.value.DictNode? && r.value.dict.template.Null?)
                    && (item.Arr? ==> r.value.ListNode? && r.value.list.itemTemplate.Null?)
                    && (!item.Obj? && !item.Arr? ==> r.value == Leaf(item)))
    ensures r.Success? && (r.value.DictNode? || r.value.ListNode?) ==>
              (r.value.DictNode? ==> r.value.dict.typeName == ItemLabel(view.typeName)) &&
              (r.value.ListNode? ==> r.value.list.typeName == ItemLabel(view.typeName))
  {
    var s := view.data.elems;
    if !InRange(|s|, i) then Failure(IndexOutOfRange(i))
    else
      assert ShapeOf(Null, s[Position(|s|, i)]).AsDict? <==> s[Position(|s|, i)].Obj?;
      assert ShapeOf(Null, s[Position(|s|, i)]).AsList? <==> s[Position(|s|, i)].Arr?;
      Wrap(ItemLabel(view.typeName), view.itemTemplate, s[Position(|s|, i)])
  }

  /** Write an item (`view[i] = value`): the item check runs first, then
      the index is resolved; the list changes at that one position. */
  function SetItem(view: ListView, i: int, value: Json): (r: Result<ListView>)
    requires view.data.Arr?
    ensures r.Success? <==> ItemValid(view.itemTemplate, value) && InRange(|view.data.elems|, i)
    ensures !ShallowAccepts(value, view.itemTemplate) ==>
              r == Failure(ShapeMismatch(ItemLabel(view.typeName)))
    ensures ItemValid(view.itemTemplate, value) && !InRange(|view.data.elems|, i) ==>
              r == Failure(IndexOutOfRange(i))
    ensures r.Success? ==>
              && r.value.typeName == view.typeName
              && r.value.itemTemplate == view.itemTemplate
              && r.value.data.Arr?
              && |r.value.data.elems| == |view.data.elems|
              && r.value.data.elems[Position(|view.data.elems|, i)] == value
              && forall k :: 0 <= k < |view.data.elems| && k != Position(|view.data.elems|, i) ==>
                   r.value.data.elems[k] == view.data.elems[k]
  {
    WriteCheckIsItemCheck(ItemLabel(view.typeName), value, view.itemTemplate);
    var s := view.data.elems;
    var _ :- WriteCheck(ItemLabel(view.typeName), value, view.itemTemplate);
    if !InRange(|s|, i) then Failure(IndexOutOfRange(i))
    else Success(view.(data := Arr(s[Position(|s|, i) := value])))
  }

  /** Append an item: the item check runs first; the list grows by exactly
      one, the value last, the earlier items unchanged. */
  function Append(view: ListView, value: Json): (r: Result<ListView>)
    requires view.data.Arr?
    ensures r.Success? <==> ItemValid(view.itemTemplate, value)
    ensures !ShallowAccepts(value, view.itemTemplate) ==>
              r == Failure(ShapeMismatch(ItemLabel(view.typeName)))
    ensures r.Success? ==>
              && r.value.typeName == view.typeName
              && r.value.itemTemplate == view.itemTemplate
              && r.value.data.Arr?
              && |r.value.data.elems| == |view.data.elems| + 1
              && r.value.data.elems[|view.data.elems|] == value
              && r.value.data.elems[..|view.data.elems|] == view.data.elems
  {
    WriteCheckIsItemCheck(ItemLabel(view.typeName), value, view.itemTemplate);
    var _ :- WriteCheck(ItemLabel(view.typeName), value, view.itemTemplate);
    Success(view.(data := Arr(view.data.elems + [value])))
  }

  /** Delete an item (`del view[i]`): no check; later items shift down. */
  function DelItem(view: ListView, i: int): (r: Result<ListView>)
    requires view.data.Arr?
    ensures r.Success? <==> InRange(|view.data.elems|, i)
    ensures r.Failure? ==> r.error == IndexOutOfRange(i)
    ensures r.Success? ==>
              var p := Position(|view.data.elems|, i);
              && r.value.typeName == view.typeName
              && r.value.itemTemplate == view.itemTemplate
              && r.value.data.Arr?
              && |r.value.data.elems| == |view.data.elems| - 1
              && (forall k :: 0 <= k < p ==> r.value.data.elems[k] == view.data.elems[k])
              && (forall k :: p <= k < |r.value.data.elems| ==> r.value.data.elems[k] == view.data.elems[k + 1])
  {
    var s := view.data.elems;
    if !InRange(|s|, i) then Failure(IndexOutOfRange(i))
    else
      var p := Position(|s|, i);
      Success(view.(data := Arr(s[..p] + s[p + 1..])))
  }

  // ---------------------------------------------------------------------

  /** On a constructed sequence view with an item template, every item passed
      the shallow check, and reading any index in range succeeds. */
  lemma GetItemSucceedsOnValid(view: ListView, i: int)
    requires IsValidList(view) && view.data.Arr? && InRange(|view.data.elems|, i)
    ensures ShallowAccepts(view.data.elems[Position(|view.data.elems|, i)], view.itemTemplate)
    ensures GetItem(view, i).Success?
  {
    var x := view.data.elems[Position(|view.data.elems|, i)];
    var it := view.itemTemplate;
    if !it.Null? {
      assert ItemValid(it, x);
    } else {
      assert x.Obj? ==> ShapeOf(it, x) == AsDict(Null);
      assert x.Arr? ==> ShapeOf(it, x) == AsList(Null);
    }
  }

  /** A successful item write keeps a constructed sequence view valid. */
  lemma SetItemPreservesValidity(view: ListView, i: int, value: Json)
    requires IsValidList(view) && view.data.Arr?
    requires SetItem(view, i, value).Success?
    ensures IsValidList(SetItem(view, i, value).value)
  {
    var after := SetItem(view, i, value).value;
    var it := view.itemTemplate;
    if !it.Null? {
      var p := Position(|view.data.elems|, i);
      forall k | 0 <= k < |after.data.elems|
        ensures ItemValid(it, after.data.elems[k])
      {
        if k != p {
          assert ItemValid(it, view.data.elems[k]);
        }
      }
    }
  }

  /** A successful append keeps a constructed sequence view valid. */
  lemma AppendPreservesValidity(view: ListView, value: Json)
    requires IsValidList(view) && view.data.Arr?
    requires Append(view, value).Success?
    ensures IsValidList(Append(view, value).value)
  {
    var after := Append(view, value).value;
    var it := view.itemTemplate;
    if !it.Null? {
      var n := |view.data.elems|;
      forall k | 0 <= k < |after.data.elems|
        ensures ItemValid(it, after.data.elems[k])
      {
        if k < n {
          assert after.data.elems[k] == after.data.elems[..n][k];
          assert ItemValid(it, view.data.elems[k]);
        }
      }
    }
  }

  /** Deleting an item keeps a constructed sequence view valid. */
  lemma DelItemPreservesValidity(view: ListView, i: int)
    requires IsValidList(view) && view.data.Arr?
    requires DelItem(view, i).Success?
    ensures IsValidList(DelItem(view, i).value)
  {
    var after := DelItem(view, i).value;
    var it := view.itemTemplate;
    if !it.Null? {
      var p := Position(|view.data.elems|, i);
      forall k | 0 <= k < |after.data.elems|
        ensures ItemValid(it, after.data.elems[k])
      {
        if k < p {
          assert ItemValid(it, view.data.elems[k]);
        } else {
          assert ItemValid(it, view.data.elems[k + 1]);
        }
      }
    }
  }

  /** The appended value is what index -1 now reads as. */
  lemma AppendThenGetLast(view: ListView, value: Json)
    requires view.data.Arr? && Append(view, value).Success?
    ensures var after := Append(view, value).value;
            GetItem(after, -1).Success? && Unwrap(GetItem(after, -1).value) == value
  {
    var after := Append(view, value).value;
    var n := |view.data.elems|;
    assert Position(n + 1, -1) == n;
    WriteCheckIsItemCheck(ItemLabel(view.typeName), value, view.itemTemplate);
    var it := view.itemTemplate;
    if it.Null? {
      assert value.Obj? ==> ShapeOf(it, value) == AsDict(Null);
      assert value.Arr? ==> ShapeOf(it, value) == AsList(Null);
    }
  }
}

=== FILE: template.dfy ===
/** Template classification and the shallow (one-level) type check. */
module Template {
  import opened JsonModel

  /** A list template of length 0 or 1 describes a homogeneous sequence:
      `[]` accepts any list, `[t]` requires every item to match `t`. */
  predicate IsListTemplate(t: Json) {
    t.Arr? && |t.elems| <= 1
  }

  /** A list template of length 2 or more is a closed choice of literals. */
  predicate IsChoiceTemplate(t: Json) {
    t.Arr? && |t.elems| > 1
  }

  /** Every list template is exactly one of the two kinds, and nothing
      else is either. */
  lemma ListTemplateKinds(t: Json)
    ensures t.Arr? <==> IsListTemplate(t) || IsChoiceTemplate(t)
    ensures !(IsListTemplate(t) && IsChoiceTemplate(t))
  {
  }

  /** A template that asks for a nested view: a mapping or a sequence shape. */
  predicate IsContainerTemplate(t: Json) {
    IsListTemplate(t) || t.Obj?
  }

  /** The shallow categories the check compares. */
  datatype Category = Number | Boolean | Text | List | Dict

  /** The category table of the shallow check; null has no entry. */
  function CategoryOf(v: Json): Category
    requires !v.Null?
  {
    match v
    case Num(_) => Number
    case Bool(_) => Boolean
    case Str(_) => Text
    case Arr(_) => List
    case Obj(_) => Dict
  }

  /** Reference relation, case by case: both values are built with the same
      constructor of Json. */
  predicate SameKind(a: Json, b: Json) {
    || (a.Num? && b.Num?)
    || (a.Bool? && b.Bool?)
    || (a.Str? && b.Str?)
    || (a.Arr? && b.Arr?)
    || (a.Obj? && b.Obj?)
  }

  /** What the shallow check accepts: null on either side, a member of a
      closed choice, or (for any other template) a value of the template's kind. */
  predicate ShallowAccepts(value: Json, template: Json) {
    || template.Null?
    || value.Null?
    || (IsChoiceTemplate(template) && value in template.elems)
    || (!IsChoiceTemplate(template) && SameKind(value, template))
  }

  /** The shallow check, as the source runs it: null short-circuits, then a
      choice demands membership, then the two categories must agree. */
  function ShallowCheck(path: string, value: Json, template: Json): (r: Result<()>)
    ensures r.Success? <==> ShallowAccepts(value, template)
    ensures r.Failure? ==> r.error == ShapeMismatch(path)
  {
    if template.Null? || value.Null? then Success(())
    else if IsChoiceTemplate(template) then
      if value in template.elems then Success(()) else Failure(ShapeMismatch(path))
    else if CategoryOf(value) == CategoryOf(template) then Success(())
    else Failure(ShapeMismatch(path))
  }

  /** A choice rejects a value of the right kind that is not listed: the
      choice is a closed enumeration, not a shape. */
  lemma ChoiceIsClosed(path: string)
    ensures ShallowCheck(path, Str("pending"), Arr([Str("open"), Str("closed")]))
            == Failure(ShapeMismatch(path))
    ensures ShallowCheck(path, Str("open"), Arr([Str("open"), Str("closed")])).Success?
  {
    assert Str("open") == Arr([Str("open"), Str("closed")]).elems[0];
  }
}

=== FILE: views.dfy ===
/** The two view kinds, eager recursive validation, and the one wrapping
    policy shared by reads, construction-time validation and write-time
    validation. */
module Views {
  import opened JsonModel
  import opened Template

  /** A mapping view (JSONDict): a diagnostic type name, a template that is
      null or a mapping, and the data it wraps. */
  datatype DictView = DictView(typeName: string, template: Json, data: Json)

  /** A sequence view (JSONList): a type name, the single item template,
      and the data it wraps. */
  datatype ListView = ListView(typeName: string, itemTemplate: Json, data: Json)

  /** What a read returns: a child view or the raw value itself. */
  datatype Node = DictNode(dict: DictView) | ListNode(list: ListView) | Leaf(value: Json)

  /** The raw data behind a read result (a write of a view stores its data). */
  function Unwrap(n: Node): Json {
    match n
    case DictNode(d) => d.data
    case ListNode(l) => l.data
    case Leaf(v) => v
  }

  /** A wildcard template: a mapping whose only key is the empty string. */
  predicate AnyKeys(t: Json) {
    t.Obj? && t.fields.Keys == {""}
  }

  /** The name check passes: no template, a wildcard, or a declared key. */
  predicate NameDeclared(t: Json, name: string) {
    t.Null? || AnyKeys(t) || (t.Obj? && name in t.fields)
  }

  function CheckName(typeName: string, t: Json, name: string): (r: Result<()>)
    ensures r.Success? <==> NameDeclared(t, name)
    ensures r.Failure? ==> r.error == UnknownField(typeName, name)
  {
    if NameDeclared(t, name) then Success(()) else Failure(UnknownField(typeName, name))
  }

  /** The template value governing a field: null under a null template, the
      wildcard's value, or the declared value. */
  function Resolve(t: Json, name: string): Json
    requires NameDeclared(t, name)
  {
    if t.Null? then Null
    else if AnyKeys(t) then t.fields[""]
    else t.fields[name]
  }

  /** Diagnostic path of a field of a mapping view. */
  function ElementLabel(typeName: string, t: Json, name: string): string {
    if AnyKeys(t) then "(element of " + typeName + ")" else typeName + "." + name
  }

  /** The wildcard rule: a mapping template whose only key is the empty
      string accepts every name, governs each by the empty key's value and
      labels it as an element of the type; next to other keys the empty key
      is an ordinary field. No template accepts every name unchecked. */
  lemma WildcardRule(typeName: string, t: Json, name: string)
    ensures AnyKeys(t) <==> t.Obj? && "" in t.fields && forall k :: k in t.fields ==> k == ""
    ensures t.Null? ==> NameDeclared(t, name) && Resolve(t, name) == Null
    ensures AnyKeys(t) ==>
              && NameDeclared(t, name)
              && Resolve(t, name) == t.fields[""]
              && ElementLabel(typeName, t, name) == "(element of " + typeName + ")"
    ensures t.Obj? && !AnyKeys(t) ==>
              && (NameDeclared(t, name) <==> name in t.fields)
              && (name in t.fields ==> Resolve(t, name) == t.fields[name])
              && ElementLabel(typeName, t, name) == typeName + "." + name
  {
  }

  /** Diagnostic path of an item of a sequence view. */
  function ItemLabel(typeName: string): string {
    "(item of " + typeName + ")"
  }

  /** How a value is presented given its template value. */
  datatype Wrapping = AsDict(template: Json) | AsList(itemTemplate: Json) | AsLeaf

  /** The wrapping policy: a mapping template (or no template over mapping
      data) gives a mapping view, where the all-accepting `{}` becomes no
      template; a sequence template (or no template over list data) gives a
      sequence view whose item template is the single element, if any;
      everything else is returned raw. */
  function ShapeOf(tv: Json, v: Json): Wrapping {
    if tv.Obj? || (tv.Null? && v.Obj?) then
      AsDict(if tv == Obj(map[]) then Null else tv)
    else if IsListTemplate(tv) || (tv.Null? && v.Arr?) then
      AsList(if tv.Null? || tv == Arr([]) then Null else tv.elems[0])
    else AsLeaf
  }

  /** The wrapping policy by cases: a container template always gives a
      child view, of its own kind; without a template the data's kind
      decides; any other template gives the raw value. The all-accepting
      `{}` and `[]` yield child views with no template. */
  lemma ShapeFollowsTemplate(tv: Json, v: Json)
    ensures tv.Obj? ==> ShapeOf(tv, v).AsDict?
    ensures IsListTemplate(tv) ==> ShapeOf(tv, v).AsList?
    ensures tv.Null? ==> (ShapeOf(tv, v).AsDict? <==> v.Obj?) && (ShapeOf(tv, v).AsList? <==> v.Arr?)
    ensures !tv.Null? && !IsContainerTemplate(tv) ==> ShapeOf(tv, v) == AsLeaf
    ensures tv == Obj(map[]) ==> ShapeOf(tv, v) == AsDict(Null)
    ensures tv == Arr([]) ==> ShapeOf(tv, v) == AsList(Null)
    ensures ShapeOf(tv, v).AsDict? ==> ShapeOf(tv, v).template.Null? || ShapeOf(tv, v).template == tv
    ensures ShapeOf(tv, v).AsList? && !ShapeOf(tv, v).itemTemplate.Null? ==>
              IsListTemplate(tv) && ShapeOf(tv, v).itemTemplate == tv.elems[0]
  {
  }

  /** Construction of a mapping view succeeds. A non-null template must be a
      mapping and so must the data; then every key must pass. */
  predicate DictValid(t: Json, d: Json)
    decreases d, 3
  {
    t.Null? || (t.Obj? && d.Obj? && forall k :: k in d.fields ==> KeyValid(t, d, k))
  }

  /** One key of the construction-time check: the raw key passes the name
      check, the value passes the shallow check, and for a container template
      reading the key back (which translates it) succeeds. */
  predicate KeyValid(t: Json, d: Json, k: string)
    requires t.Obj? && d.Obj? && k in d.fields
    decreases d, 2
  {
    && NameDeclared(t, k)
    && ShallowAccepts(d.fields[k], Resolve(t, k))
    && (IsContainerTemplate(Resolve(t, k)) ==> ReadValid(t, d, Translate(k)))
  }

  /** A read of an already translated key succeeds: the name check passes,
      and a present non-null value wraps into a valid view. */
  predicate ReadValid(t: Json, d: Json, key: string)
    requires t.Obj? && d.Obj?
    decreases d, 1
  {
    && NameDeclared(t, key)
    && (Present(d.fields, key) ==> WrapValid(Resolve(t, key), d.fields[key]))
  }

  /** Wrapping a value succeeds: the child view it builds validates. */
  predicate WrapValid(tv: Json, v: Json)
    decreases v, 4
  {
    match ShapeOf(tv, v)
    case AsDict(ct) => DictValid(ct, v)
    case AsList(it) => ListValid(it, v)
    case AsLeaf => true
  }

  /** Construction of a sequence view succeeds: with an item template, the
      data is a list and every item passes. */
  predicate ListValid(it: Json, d: Json)
    decreases d, 3
  {
    it.Null? || (d.Arr? && forall i :: 0 <= i < |d.elems| ==> ItemValid(it, d.elems[i]))
  }

  /** One item of the construction-time check: shallow check, then for a
      container item template the wrapped item validates (a null item is
      wrapped too). */
  predicate ItemValid(it: Json, x: Json)
    decreases x, 5
  {
    && ShallowAccepts(x, it)
    && (IsContainerTemplate(it) ==> WrapValid(it, x))
  }

  /** A mapping view that its constructor accepted. */
  predicate IsValidDict(v: DictView) {
    DictValid(v.template, v.data)
  }

  /** A sequence view that its constructor accepted. */
  predicate IsValidList(v: ListView) {
    ListValid(v.itemTemplate, v.data)
  }

  /** JSONDict(...): validates eagerly, fails on the first bad key. */
  function NewDict(typeName: string, t: Json, d: Json): (r: Result<DictView>)
    ensures r.Success? <==> DictValid(t, d)
    ensures r.Success? ==> r.value == DictView(typeName, t, d)
  {
    if DictValid(t, d) then Success(DictView(typeName, t, d)) else Failure(Rejected(typeName))
  }

  /** JSONList(...): validates every item eagerly. */
  function NewList(typeName: string, it: Json, d: Json): (r: Result<ListView>)
    ensures r.Success? <==> ListValid(it, d)
    ensures r.Success? ==> r.value == ListView(typeName, it, d)
  {
    if ListValid(it, d) then Success(ListView(typeName, it, d)) else Failure(Rejected(typeName))
  }

  /** Present a value under its template value, building (and so validating)
      the child view the policy asks for. */
  function Wrap(path: string, tv: Json, v: Json): (r: Result<Node>)
    ensures r.Success? <==> WrapValid(tv, v)
    ensures r.Success? ==> Unwrap(r.value) == v
    ensures r.Success? && r.value.DictNode? ==>
              && ShapeOf(tv, v) == AsDict(r.value.dict.template)
              && r.value.dict.typeName == path
              && IsValidDict(r.value.dict)
    ensures r.Success? && r.value.ListNode? ==>
              && ShapeOf(tv, v) == AsList(r.value.list.itemTemplate)
              && r.value.list.typeName == path
              && IsValidList(r.value.list)
    ensures r.Success? && r.value.Leaf? ==> ShapeOf(tv, v) == AsLeaf
  {
    match ShapeOf(tv, v)
    case AsDict(ct) =>
      var view :- NewDict(path, ct, v);
      Success(DictNode(view))
    case AsList(it) =>
      var view :- NewList(path, it, v);
      Success(ListNode(view))
    case AsLeaf => Success(Leaf(v))
  }

  /** The check run before every write (field write, item write, append):
      the shallow check, then, for a non-empty container template, a
      transient child view over the value. */
  function WriteCheck(path: string, value: Json, tv: Json): (r: Result<()>)
    ensures r.Failure? && !ShallowAccepts(value, tv) ==> r.error == ShapeMismatch(path)
  {
    var _ :- ShallowCheck(path, value, tv);
    if tv.Obj? && tv != Obj(map[]) && !DictValid(tv, value) then Failure(Rejected(path))
    else if IsListTemplate(tv) && tv != Arr([]) && !ListValid(tv.elems[0], value) then Failure(Rejected(path))
    else Success(())
  }

  /** A template value under which writing null is refused: a non-empty
      mapping template, or a one-element list template whose item template
      is not null. The write check then builds a child view over null. */
  predicate RefusesNull(tv: Json) {
    || (tv.Obj? && tv != Obj(map[]))
    || (IsListTemplate(tv) && tv != Arr([]) && !tv.elems[0].Null?)
  }

  /** The write check refuses null exactly under such template values. */
  lemma NullWriteCheck(path: string, tv: Json)
    ensures WriteCheck(path, Null, tv).Success? <==> !RefusesNull(tv)
  {
    if tv.Obj? && tv != Obj(map[]) {
      assert !DictValid(tv, Null);
    }
  }

  // ---------------------------------------------------------------------
  // Facts about construction-time validation

  /** The write check and the construction check of one sequence item agree
      exactly, null items included. */
  lemma WriteCheckIsItemCheck(path: string, value: Json, it: Json)
    ensures WriteCheck(path, value, it).Success? <==> ItemValid(it, value)
  {
    if ShallowAccepts(value, it) && IsContainerTemplate(it) {
      if it.Obj? {
        assert ShapeOf(it, value) == AsDict(if it == Obj(map[]) then Null else it);
        if it == Obj(map[]) {
          assert WrapValid(it, value) == DictValid(Null, value);
        } else {
          assert WrapValid(it, value) == DictValid(it, value);
        }
      } else {
        assert ShapeOf(it, value) == AsList(if it == Arr([]) then Null else it.elems[0]);
        if it == Arr([]) {
          assert WrapValid(it, value) == ListValid(Null, value);
        } else {
          assert WrapValid(it, value) == ListValid(it.elems[0], value);
        }
      }
    }
  }

  /** After a successful write check of a non-null value, reading the value
      back wraps it into a valid view (for any template value). */
  lemma WriteCheckGivesWrapValid(path: string, value: Json, tv: Json)
    requires WriteCheck(path, value, tv).Success?
    ensures ShallowAccepts(value, tv)
    ensures WrapValid(tv, value)
  {
    if tv.Obj? {
      assert ShapeOf(tv, value) == AsDict(if tv == Obj(map[]) then Null else tv);
    } else if IsListTemplate(tv) {
      assert ShapeOf(tv, value) == AsList(if tv == Arr([]) then Null else tv.elems[0]);
    }
  }

  /** Conversely, a non-null value that the shallow check accepts and that
      wraps into a valid view passes the write check. */
  lemma WrapValidGivesWriteCheck(path: string, value: Json, tv: Json)
    requires !value.Null? && ShallowAccepts(value, tv) && WrapValid(tv, value)
    ensures WriteCheck(path, value, tv).Success?
  {
    if tv.Obj? {
      assert ShapeOf(tv, value) == AsDict(if tv == Obj(map[]) then Null else tv);
    } else if IsListTemplate(tv) {
      assert ShapeOf(tv, value) == AsList(if tv == Arr([]) then Null else tv.elems[0]);
    }
  }

  /** Per-field condition of a valid mapping whose keys need no translation. */
  predicate FieldValid(tv: Json, v: Json) {
    && ShallowAccepts(v, tv)
    && (IsContainerTemplate(tv) && !v.Null? ==> WrapValid(tv, v))
  }

  /** When no key of the data contains an underscore, validity is a
      per-field property: each key is declared and its value fits. */
  lemma {:induction false} DictValidLocal(t: Json, m: map<string, Json>)
    requires t.Obj?
    requires forall k :: k in m ==> '_' !in k
    ensures DictValid(t, Obj(m)) <==>
            forall k :: k in m ==> NameDeclared(t, k) && FieldValid(Resolve(t, k), m[k])
  {
    var d := Obj(m);
    forall k | k in m
      ensures KeyValid(t, d, k) <==> NameDeclared(t, k) && FieldValid(Resolve(t, k), m[k])
    {
      TranslateFixesPlain(k);
    }
  }

  /** Under a fixed-field template, a key the template does not declare
      makes construction fail. */
  lemma UndeclaredFieldRejected(typeName: string, t: Json, m: map<string, Json>, k: string)
    requires t.Obj? && !AnyKeys(t)
    requires k in m && k !in t.fields
    ensures NewDict(typeName, t, Obj(m)).Failure?
  {
    assert !KeyValid(t, Obj(m), k);
  }

  /** On a constructed view with a template, every field passed the shallow
      check against its resolved template value. */
  lemma ValidFieldsFit(t: Json, m: map<string, Json>, k: string)
    requires !t.Null? && DictValid(t, Obj(m)) && k in m
    ensures NameDeclared(t, k) && ShallowAccepts(m[k], Resolve(t, k))
  {
    assert KeyValid(t, Obj(m), k);
  }

  /** On a constructed view, a present field whose key has no underscore and
      whose template value is a container wraps into a valid child view:
      validation is recursive. */
  lemma ValidChildrenValid(t: Json, m: map<string, Json>, k: string)
    requires !t.Null? && DictValid(t, Obj(m)) && Present(m, k) && '_' !in k
    requires NameDeclared(t, k) && IsContainerTemplate(Resolve(t, k))
    ensures WrapValid(Resolve(t, k), m[k])
  {
    TranslateFixesPlain(k);
    assert KeyValid(t, Obj(m), k);
    assert ReadValid(t, Obj(m), k);
  }

  /** The construction check reads a container-typed field back through the
      attribute path, which translates the key again: a declared key holding
      an underscore whose translation is not declared makes construction
      fail, whatever the value. */
  lemma UnderscoreFieldRejected(typeName: string, t: Json, m: map<string, Json>, k: string)
    requires t.Obj? && !AnyKeys(t)
    requires k in m && k in t.fields && IsContainerTemplate(t.fields[k])
    requires Translate(k) !in t.fields
    ensures '_' in k
    ensures NewDict(typeName, t, Obj(m)).Failure?
  {
    TranslateFixesPlain(k);
    assert !KeyValid(t, Obj(m), k);
  }

  /** The smallest instance: `{"a_b": {}}` over `{"a_b": {}}` is rejected. */
  lemma UnderscoreFieldExample()
    ensures NewDict("Doc", Obj(map["a_b" := Obj(map[])]), Obj(map["a_b" := Obj(map[])])).Failure?
  {
    var t := Obj(map["a_b" := Obj(map[])]);
    assert Translate("a_b") == "a b";
    UnderscoreFieldRejected("Doc", t, map["a_b" := Obj(map[])], "a_b");
  }
}
